=== FILE: README.md ===
# Subscription gating for a members-only video site, in Dafny

This project models the logic of a small Next.js site that sells a
subscription to members-only videos. Supabase handles identity and storage,
and Stripe handles payment. The model covers:

- **Entitlement.** A user is a member when their latest `subscriptions` row
  has status `active` or `trialing`, and its `current_period_end` is either
  absent or strictly after now. The pages do not share this rule: each of
  three pages (the gallery, the account page and the login callback) copies
  it inline. `Entitlement.IsEntitled` states the rule once, and each copy is
  modelled in its own JavaScript form and proved equal to it.
- **Login callback.** After sign-in, the callback page exchanges the code,
  looks up the user and the row, and issues exactly one `router.replace`.
- **Checkout.** `POST /api/checkout` validates the request and builds the
  Stripe session parameters. The session metadata names the user, and the
  success URL returns to `/account?session_id=…`.
- **Confirmation.** `GET /api/stripe/confirm` reconciles a completed checkout
  session into the `subscriptions` table. The table is modelled as a map
  keyed by `stripe_subscription_id`, the upsert's conflict key.
- **Gallery.** `/videos` groups videos into film cards by `group_key`, picks
  each card's trailer, full version and title, and builds the slide list.
  Only members ever get the "full" slide.
- **Account page.** `/account` covers the confirmation trigger, the error it
  records, the billing-portal guard, the identity line and the member links.
- **Small guards.** These are:
  - the admin bearer gate (`POST /api/admin/confirm`);
  - the secret-redacting `reveal` of `GET /api/diag`;
  - the landing page's rule for forwarding an access-token fragment;
  - the trailers page's age gate, together with the cookie set by
    `POST /api/age/confirm`.
- **Cross-route lemmas** (module `SubscriptionFlow`). These show how the
  routes fit together:
  - the user named in a checkout request owns the row that confirmation
    writes;
  - that row entitles its user exactly when Stripe reported an active or
    trialing subscription that has not lapsed;
  - every failed confirmation surfaces as an error on the account page.

Every collaborator is an input to the model: Stripe, Supabase, `fetch`, the
browser's cookie string and localStorage, and the clock (`now`, in
milliseconds). Each operation returns what the page or route would produce,
plus the trace of collaborator calls it makes (`calls`, `requested`). The
trace is what lets the model state properties such as "no Stripe call",
"no write" and "exactly one redirect".

Two details of the code are easy to misread:

- **Callback error tag.** The callback page redirects a failed code exchange
  to `/login?error=callback`. It reads only the `code` query parameter and
  handles no tokens in the location fragment; the landing page forwards such
  a fragment to it unchanged.
- **Slide count.** A comment in `FilmCard` says "Always two slides", but the
  code pushes the trailer slide only when a trailer id exists. A card
  without a trailer therefore has a single slide. `Videos.Slides` and
  `Videos.ControlsIffTrailer` state what the code does.

## Model

| member | source | states |
|---|---|---|
| Videos.IsMember | src/app/videos/page.tsx:194-197 | the gallery's inline check (`!!sub`, `includes(status ?? '')`, `!end \|\| getTime() > now`) holds exactly when the reference entitlement rule does |
| Account.Active | src/app/account/page.tsx:63-66 | the account page's inline `active` check holds exactly when the reference entitlement rule does |
| AuthCallback.IsSubscriber | src/app/auth/callback/page.tsx:48-51 | the callback's `notExpired`/`isSubscriber` pair holds exactly when the reference entitlement rule does |
| Entitlement.IncludesActive | src/app/videos/page.tsx:196 | `['active','trialing'].includes(status ?? '')` is membership of the status in the active set, a null status never matching |
| Entitlement.ExpiryTestAgrees | src/app/videos/page.tsx:197 | the JavaScript expiry test (falsy end, or a parsed time strictly after now, NaN comparing false) is the "not lapsed" condition |
| Entitlement.AbsentRowNotEntitled | src/app/videos/page.tsx:195 | with no row nobody is entitled |
| Entitlement.PeriodEndIsExclusive | src/app/account/page.tsx:66 | a period end equal to now is already lapsed |
| Entitlement.EntitledStatusIsExact | src/app/videos/page.tsx:196 | only the exact statuses "active" and "trialing" entitle |
| Entitlement.EntitlementOnlyLapses | src/app/videos/page.tsx:197 | a row entitled at some instant is entitled at every earlier instant |
| Account.ActiveEndsAtPeriodEnd | src/app/account/page.tsx:63-66 | on the account page a period end equal to now shows no active subscription |
| Videos.LoadedSub | src/app/videos/page.tsx:170-178 | without a signed-in user the page's row is null; otherwise it is the selected row |
| Videos.SignedOutIsNotMember | src/app/videos/page.tsx:170-197 | a signed-out visitor is never a member, whatever row exists |
| Videos.LoadedVideos | src/app/videos/page.tsx:189 | the video list is the query's rows, or stays empty when the query errs or returns no data |
| Videos.GroupVideos | src/app/videos/page.tsx:199-207 | the groups have distinct keys, each holds exactly the videos with its key in input order, every key of the input has a group, and groups are ordered by the first appearance of their key |
| Videos.EveryVideoInExactlyOneGroup | src/app/videos/page.tsx:199-207 | each video lies in the group of its own key and in no other group |
| Videos.NoGroupsIffNoVideos | src/app/videos/page.tsx:233 | the map is empty (the "No videos yet" notice) exactly when there are no videos |
| Videos.FirstMatch | src/app/videos/page.tsx:239-240 | the index `find` stops at: the first video of the wanted kind, none when there is no such video |
| Videos.TrailerAndFullSelection | src/app/videos/page.tsx:239-240 | the trailer is the first non-member-only video and the full version the first member-only video; each is absent exactly when the group has none of that kind |
| Videos.DisplayTitle | src/app/videos/page.tsx:209-212 | the title is that of the first non-member-only video, else of the first video, else "Untitled" |
| Videos.Slides | src/app/videos/page.tsx:58-64 | 1 or 2 slides; "trailer" comes first exactly when a trailer id is truthy; the last slide is "full" exactly for a member with a truthy full id, else "locked" |
| Videos.ControlsIffTrailer | src/app/videos/page.tsx:137-150 | arrows and dots appear exactly when the card has a trailer slide |
| Videos.CardFor | src/app/videos/page.tsx:242-249 | a card carries its group's key and display title, the playback ids of the group's trailer and full version (the trailer id absent exactly when every video of the group is member-only, the full id absent exactly when none is), and the slide list for those ids |
| Videos.Gallery | src/app/videos/page.tsx:226-251 | "Subscribe" shows exactly for a non-member, "Sign in" exactly without a user, sign-out exactly with one; one card per group, in group order |
| Videos.NonMemberNeverGetsFull | src/app/videos/page.tsx:61-62 | for anyone not entitled, no card has a "full" slide and every card ends with "locked", whatever the videos |
| Videos.FullSlidePlaysMemberVideo | src/app/videos/page.tsx:238-247 | a "full" slide exists only for a member and plays a member-only video of the card's own group |
| Account.Identity | src/app/account/page.tsx:62 | the identity shown is the email if present, else the user id, else "Unknown user" |
| Account.ConfirmTrigger | src/app/account/page.tsx:30-31 | the confirm request is sent exactly when `session_id` is present and non-empty, carrying that id |
| Account.ConfirmError | src/app/account/page.tsx:34-41 | a network or JSON failure records its message; a non-OK reply records `data.error` if truthy, else "confirm failed"; an OK JSON reply records nothing |
| Account.RefusedConfirmRecordsMessage | src/app/account/page.tsx:37 | a refused confirmation always records a non-empty message |
| Account.OpenBillingPortal | src/app/account/page.tsx:69-77 | the portal request is made exactly when `stripe_customer_id` is truthy, and carries that id |
| Account.PortalResult | src/app/account/page.tsx:79-80 | the page navigates exactly to a truthy `url`, otherwise it alerts the error or "Could not open billing portal" |
| Account.PortalAlwaysActs | src/app/account/page.tsx:78-80 | every portal reply ends in a navigation to the non-empty URL returned or an alert with a non-empty message (the route's error or the fixed one); any non-empty URL is navigated to whatever the error, and without a URL a non-empty error is alerted as is |
| Account.Render | src/app/account/page.tsx:83-112 | no user gives the "Not signed in" view; otherwise the member panel shows exactly when entitled, carrying the row's status, with the identity line and a truthy recorded error |
| Account.DashboardNamesTheUser | src/app/account/page.tsx:62-112 | a signed-in user always gets the dashboard, named by their email or, without one, by their id; "Unknown user" appears only if it is that user's own email or id |
| Account.MemberLinksOnlyWhenEntitled | src/app/account/page.tsx:97-112 | "Go to Videos" and "Manage billing" appear exactly when entitled; with no row the page offers "Subscribe" |
| AuthCallback.Run | src/app/auth/callback/page.tsx:22-53 | the exchange is attempted exactly for a truthy code; a failed exchange goes to "/login?error=callback" with nothing after it; otherwise the trace is exactly the exchange (if any), then `getUser`, then, for a user, the subscription read for that user's id, then one replace: "/login?error=nouser" without a user, "/videos" for an entitled row, else "/pricing" |
| AuthCallback.ExactlyOneReplace | src/app/auth/callback/page.tsx:22-53 | every run issues exactly one `router.replace`, as its last call |
| AuthCallback.NoReplaceBefore | src/app/auth/callback/page.tsx:22-53 | a trace with no `router.replace` call counts zero replaces; the step `ExactlyOneReplace` uses to show that only the final call of a run replaces |
| AuthCallback.AbsentRowRoutesToPricing | src/app/auth/callback/page.tsx:49-53 | an absent row never routes to "/videos", and a signed-in user without a row whose code exchange did not fail is sent to "/pricing" |
| AuthCallback.NoCodeNoExchange | src/app/auth/callback/page.tsx:23-24 | a missing or empty code makes no exchange call |
| StripeConfirm.CustomerText | src/app/api/stripe/confirm/route.ts:39 | the stored customer id is `String(session.customer)`: the id, "null", or "[object Object]" |
| StripeConfirm.UserIdOf | src/app/api/stripe/confirm/route.ts:22-23 | `meta?.user_id` is present exactly when the metadata exists and has that key |
| StripeConfirm.PeriodEndFrom | src/app/api/stripe/confirm/route.ts:31-32 | an absent or zero period end is stored as null; otherwise seconds × 1000 ms, or the `toISOString` range error outside ±8.64e15 ms |
| StripeConfirm.Upsert | src/app/api/stripe/confirm/route.ts:34-45 | the row lands under its subscription id, no other key appears, every other row is unchanged, and keying by subscription id is preserved |
| StripeConfirm.UpsertIdempotent | src/app/api/stripe/confirm/route.ts:34-45 | upserting the same row twice equals upserting it once |
| StripeConfirm.Confirm | src/app/api/stripe/confirm/route.ts:14-53 | a missing session id gives 400 with no call; a failed retrieval gives 500 with its message; missing linkage gives 400; a period end `toISOString` rejects gives 500 with no write; otherwise the upsert carries exactly the metadata user, the customer text, the subscription id, its status and period end, and a write error gives 500 with the table unchanged while success gives 200 with the status and the row applied; every non-200 leaves the table unchanged |
| StripeConfirm.ConfirmSuccess | src/app/api/stripe/confirm/route.ts:34-49 | a successful confirmation answers 200 with the subscription status and stores the session's user, customer, status and period end under the subscription id, leaving every other row unchanged |
| StripeConfirm.ConfirmIdempotent | src/app/api/stripe/confirm/route.ts:34-45 | confirming the same session twice leaves the table, status and body as confirming it once |
| StripeConfirm.ConfirmKeepsKeying | src/app/api/stripe/confirm/route.ts:34-45 | every request keeps each row under its own subscription id |
| Checkout.Params | src/app/api/checkout/route.ts:21-28 | subscription mode, one line item of the price with quantity 1, the email, the success and cancel URLs, metadata `{user_id}` |
| Checkout.Post | src/app/api/checkout/route.ts:9-34 | a malformed body gives 500 with its message; a missing or empty field gives 400 and no session request; a valid body makes exactly one request with those parameters and answers 200 with `url ?? ''`, or 500 with Stripe's message |
| Checkout.MetadataNamesUser | src/app/api/checkout/route.ts:27 | the session requested for a valid body carries the request's non-empty `userId` under `user_id` |
| AdminConfirm.BearerToken | src/app/api/admin/confirm/route.ts:6-7 | the token is what follows a leading "Bearer ", or "" when the header is absent or lacks that prefix |
| AdminConfirm.BearerRoundTrip | src/app/api/admin/confirm/route.ts:7 | the token comes back out of "Bearer " + token unchanged |
| AdminConfirm.Post | src/app/api/admin/confirm/route.ts:4-24 | the status is 401 exactly for an unauthorized request, whose body is never read; an unparseable body or a missing, empty or non-string `user_id` gives 400 with no update call; a JSON `null` body makes the destructuring throw; an authorized request with a non-empty string `user_id` reads the body, updates exactly that user, and answers with the user's id and email or with the update's error message; a 200 only follows a successful update |
| AdminConfirm.UnsetSecretRejectsAll | src/app/api/admin/confirm/route.ts:8 | with no secret configured every request is refused with no call |
| AdminConfirm.SecretAdmitsRequest | src/app/api/admin/confirm/route.ts:6-20 | the right bearer secret with a proper `user_id` reads the body and updates exactly that user |
| Diag.Head | src/app/api/diag/route.ts:4 | `v.slice(0, 6)` is the first min(6, length) characters of the value |
| Diag.Reveal | src/app/api/diag/route.ts:4 | an unset or empty value reveals as "MISSING" |
| Diag.RevealRoundTrip | src/app/api/diag/route.ts:4 | the revealed text reads back as exactly the first min(6, length) characters and the decimal length |
| Diag.RevealLeaksOnlyHeadAndLength | src/app/api/diag/route.ts:4-10 | two secrets with the same first six characters and length reveal identically, and two set secrets that reveal identically share their first six characters and their length |
| Diag.Get | src/app/api/diag/route.ts:6-14 | the anon key is reported only as "SET" or "MISSING"; the URL, price id and site URL appear verbatim or "MISSING"; the secret keys go through `reveal` |
| Diag.ReportHidesSecrets | src/app/api/diag/route.ts:8-10 | the report depends on the anon key only through whether it is set, and on the secret keys only through their first six characters and length |
| Text.Contains | src/app/page.tsx:6 | `includes` holds exactly when the pattern occurs at some position |
| Text.DecimalRoundTrip | src/app/api/diag/route.ts:4 | the decimal rendering of a length reads back as that length |
| Home.Forward | src/app/page.tsx:5-10 | the page navigates exactly when the hash contains "access_token", to "/auth/callback" followed by the unchanged hash; otherwise it does not navigate |
| Home.ForwardKeepsFragment | src/app/page.tsx:8 | the forwarded target ends with the whole fragment, leading "#" included |
| Home.TokenFragmentIsForwarded | src/app/page.tsx:6 | any hash with "access_token" inside it is forwarded |
| Home.UpperCaseMarkerIsNotForwarded | src/app/page.tsx:6 | the test is case-sensitive: a hash without a lower-case "a" (such as "#ACCESS_TOKEN=x") is never forwarded |
| Trailers.Initial | src/app/trailers/page.tsx:17 | `ageOk` starts false |
| Trailers.CheckAge | src/app/trailers/page.tsx:22-28 | after the check `ageOk` holds exactly when the cookie string contains "age_ok_v1=1" or localStorage holds exactly "1" |
| Trailers.ConfirmAge | src/app/trailers/page.tsx:45-55 | confirming posts once and, whether or not the post throws, ends with localStorage "1" and `ageOk` true |
| Trailers.ConfirmedGateStaysOpen | src/app/trailers/page.tsx:18-55 | after confirming, whether or not the post failed, the overlay is gone, a later check keeps it gone, and a fresh page load that reads the stored "1" from localStorage passes the check on any cookie string |
| Trailers.OverlayIffNotConfirmed | src/app/trailers/page.tsx:17-72 | the overlay shows at first and, after the check, exactly when neither the cookie nor localStorage carries the flag |
| Trailers.CookieInString | src/app/trailers/page.tsx:24 | every cookie the browser holds appears in `document.cookie` as "name=value" |
| Trailers.SetCookiePairOf | src/app/api/age/confirm/route.ts:6 | a `Set-Cookie` header "name=value; attributes…" stores exactly that name and value |
| Trailers.AgeHeaderStoresFlag | src/app/api/age/confirm/route.ts:6 | the header the age route appends stores the cookie `age_ok_v1=1` |
| Trailers.RouteCookiePassesCheck | src/app/trailers/page.tsx:24 | once the browser holds the cookie the age route sets, the page's age check passes |
| Trailers.LongerValuePasses | src/app/trailers/page.tsx:24 | the substring test also accepts `age_ok_v1=10` |
| Trailers.PublicRows | src/app/trailers/page.tsx:34-38 | the query returns exactly the table's rows that are not member-only, each as many times as it occurs in the table (equal multisets), and none that is member-only |
| Trailers.Listed | src/app/trailers/page.tsx:34-39 | when the query succeeds the list is exactly the query's rows (`PublicRows`), so never member-only and holding every public row; when it fails the list is empty |
| SubscriptionFlow.SuccessUrlCarriesSessionParam | src/app/api/checkout/route.ts:25 | the success URL returns to `/account` with the `session_id` parameter that the account page and the confirm route both read |
| SubscriptionFlow.CheckoutLinksUserToRow | src/app/api/checkout/route.ts:27 | a validated checkout yields a session that confirmation accepts, and the row it writes belongs to the requesting user |
| SubscriptionFlow.StoredPeriodEndNotLapsed | src/app/api/stripe/confirm/route.ts:31-32 | the stored period end has not lapsed exactly when it was absent, zero, or after now |
| SubscriptionFlow.ConfirmedRowEntitles | src/app/api/stripe/confirm/route.ts:34-45 | a confirmed row entitles exactly when Stripe's status is active or trialing and its period end is absent or in the future, and all three pages agree |
| SubscriptionFlow.CanceledRowDoesNotEntitle | src/app/api/stripe/confirm/route.ts:41 | a confirmed canceled subscription never entitles |
| SubscriptionFlow.ConfirmedMemberRoutesToVideos | src/app/auth/callback/page.tsx:47-53 | after confirming an active or trialing subscription whose period end is absent or after now, the login callback sends the user to "/videos" when its query selects that confirmed row (which row it selects is an input, see Left out) |
| SubscriptionFlow.TriggerMatchesRoute | src/app/account/page.tsx:29-35 | for any `session_id` value, the page sends the confirm request exactly when the confirm route would call Stripe for it; the request makes the route retrieve that same session; a value the page does not send is one the route refuses with 400 and no write |
| SubscriptionFlow.ReplyOf | src/app/api/stripe/confirm/route.ts:49-53 | the reply the account page gets is OK exactly for a 2xx status and carries the route's error |
| SubscriptionFlow.AccountRecordsConfirmFailure | src/app/account/page.tsx:37-40 | the account page records an error exactly when confirmation did not answer 200, namely the route's message or "confirm failed" |
| SubscriptionFlow.NullCustomerPassesPortalGuard | src/app/api/stripe/confirm/route.ts:39 | a session without a customer stores the text "null", which passes the account page's billing guard |

## Left out

- Rendering is out of scope: JSX, styling, MuxPlayer and the Embla carousel. Only the booleans and lists that decide what renders are modelled.
- The database's choice of row is an input. Which row `.order('current_period_end', {ascending:false}).limit(1)` selects depends on NULL ordering and on tie-breaking, which the code does not show.
- Dates are abstracted. `Date.now()` is an integer parameter. The period-end column is `Null | Empty | Parsed(ms) | Unparseable`, with NaN making `>` false. Writing the period end with `toISOString` and reading it back with `new Date` is taken to preserve the instant; ISO formatting and parsing are not modelled.
- Strings are sequences of Dafny characters, which are Unicode scalar values, while JavaScript strings are UTF-16. Only strings without surrogate pairs are modelled (text in the Basic Multilingual Plane, where a code unit is a character). A JavaScript string with a character outside that plane has no representation here, and Diag.Reveal does not cover a value whose first six code units split a surrogate pair, or whose `length` counts a pair as two.
- URL construction and query parsing are left out: `encodeURIComponent`, `URLSearchParams`, and how Stripe substitutes `{CHECKOUT_SESSION_ID}`. A query parameter is an `Option<string>` input.
- Effect interleaving is not modelled. On the account page and the gallery the effects run independently, and their ordering is not fixed. On the gallery the header's user and the row's user come from two separate `getUser` calls, which the model takes to agree.
- Trailers.PublicRows: the order the query asks for (`order('id', {ascending:false})`) is not modelled. The contract fixes which rows are listed and how many times each, not their order.
- Videos.LoadedVideos: the query's order (`created_at` descending) is not modelled. The rows are taken in the order given.
- Checkout.Post: a field that is present but not a string is not modelled. The request type declares the fields as strings, and the model's fields are optional strings. A body that fails to parse, or is JSON `null`, is `Malformed` with the thrown message. Any other value that is not an object, such as a number or a string, has none of the three properties and is `Fields(None, None, None)`, which the route answers with 400.
- The billing-portal route, the pricing page, and the login, signup, password and profile pages are not part of this model. The account page's portal call is modelled only through its guard and its reply handling.
- Account.PortalResult: a portal `fetch` that rejects, or a reply whose body is not JSON, ends in an unhandled promise rejection with nothing shown. Only JSON replies are modelled.
- Supabase and Stripe client construction, environment loading and the sign-out button are not modelled.

=== FILE: account.dfy ===
/**
  The account page (`/account`): the `active` check, the one-shot
  confirmation request made on return from checkout, the error it records,
  the billing-portal guard, the identity line and the links shown.
 */
module Account {
  import opened Common
  import opened Entitlement

  /** The query parameter carrying the checkout session on return from
      checkout. */
  const SessionIdParam: string := "session_id"

  /** The signed-in user as the page reads it. */
  datatype User = User(id: string, email: Option<string>)

  /** The inline `active` check of the account page, in its JavaScript form;
      it is the entitlement rule. */
  function Active(sub: Option<SubRow>, now: int): (r: bool)
    ensures r <==> IsEntitled(sub, now)
  {
    if sub.None? then false
    else
      IncludesActive(sub.value.status);
      ExpiryTestAgrees(sub.value.periodEnd, now);
      && Includes(ActiveStatusList, sub.value.status.GetOr(""))
      && (!PeriodTruthy(sub.value.periodEnd) || After(GetTime(sub.value.periodEnd), now))
  }

  /** A period end equal to `now` already shows the account as inactive. */
  lemma ActiveEndsAtPeriodEnd(status: Option<string>, customer: Option<string>, now: int)
    ensures !Active(Some(SubRow(status, Parsed(now), customer)), now)
  {
  }

  /** `user?.email ?? user?.id ?? 'Unknown user'`. */
  function Identity(user: Option<User>): (r: string)
    ensures user.Some? && user.value.email.Some? ==> r == user.value.email.value
    ensures user.Some? && user.value.email.None? ==> r == user.value.id
    ensures user.None? ==> r == "Unknown user"
  {
    match user
    case None => "Unknown user"
    case Some(u) => u.email.GetOr(u.id)
  }

  /** The confirmation effect: the session id sent to the confirm route, or
      `None` when no request is made. */
  function ConfirmTrigger(sessionId: Option<string>): (r: Option<string>)
    ensures r.Some? <==> Truthy(sessionId)
    ensures r.Some? ==> r == sessionId
  {
    if Truthy(sessionId) then sessionId else None
  }

  /** What comes back from `fetch` of the confirm route: the request itself
      fails, or a response arrives whose body does or does not parse as JSON. */
  datatype ConfirmReply =
    | NetworkFailure(message: string)
    | Reply(ok: bool, body: ReplyBody)

  /** The parsed body; `error` is its `error` field. */
  datatype ReplyBody = NotJson(message: string) | Json(error: Option<string>)

  const ConfirmFailedMessage: string := "confirm failed"

  /** The error the confirmation records (`confirmErr`), `None` when it
      records nothing. */
  function ConfirmError(reply: ConfirmReply): (r: Option<string>)
    ensures reply.NetworkFailure? ==> r == Some(reply.message)
    ensures reply.Reply? && reply.body.NotJson? ==> r == Some(reply.body.message)
    ensures reply.Reply? && reply.body.Json? ==> (r.None? <==> reply.ok)
    ensures reply.Reply? && reply.body.Json? && !reply.ok && Truthy(reply.body.error) ==> r == reply.body.error
    ensures reply.Reply? && reply.body.Json? && !reply.ok && !Truthy(reply.body.error) ==> r == Some(ConfirmFailedMessage)
  {
    match reply
    case NetworkFailure(m) => Some(m)
    case Reply(ok, body) =>
      match body
      case NotJson(m) => Some(m)
      case Json(error) => if ok then None else Some(OrElse(error, ConfirmFailedMessage))
  }

  /** A refused confirmation with a parsed body always records a non-empty
      message. */
  lemma RefusedConfirmRecordsMessage(error: Option<string>)
    ensures ConfirmError(Reply(false, Json(error))).Some?
    ensures ConfirmError(Reply(false, Json(error))).value != ""
  {
  }

  /** What clicking "Manage billing" does before any network call. */
  datatype PortalAction = NoBillingRecord | RequestPortal(customerId: string)

  /** `openBillingPortal`'s guard: a request is made only for a truthy
      `stripe_customer_id`, and it carries that id. */
  function OpenBillingPortal(sub: Option<SubRow>): (a: PortalAction)
    ensures a.RequestPortal? <==> sub.Some? && Truthy(sub.value.customerId)
    ensures a.RequestPortal? ==> sub.value.customerId == Some(a.customerId)
  {
    if sub.Some? && Truthy(sub.value.customerId) then RequestPortal(sub.value.customerId.value)
    else NoBillingRecord
  }

  /** The portal route's JSON reply as the page reads it. */
  datatype PortalReply = PortalReply(url: Option<string>, error: Option<string>)

  datatype PortalOutcome = Navigate(url: string) | Alert(message: string)

  const PortalFailedMessage: string := "Could not open billing portal"

  /** Navigate to a truthy `url`, otherwise alert the error or a fixed
      message. */
  function PortalResult(reply: PortalReply): (o: PortalOutcome)
    ensures o.Navigate? <==> Truthy(reply.url)
    ensures o.Navigate? ==> Some(o.url) == reply.url
    ensures o.Alert? ==> o.message == OrElse(reply.error, PortalFailedMessage) && o.message != ""
  {
    if Truthy(reply.url) then Navigate(reply.url.value) else Alert(OrElse(reply.error, PortalFailedMessage))
  }

  /** Every JSON reply of the portal route ends in something visible: a
      navigation to the non-empty URL the route returned, or an alert with
      the route's non-empty error or the fixed message. A reply carrying a
      URL navigates there whatever its error says, and a reply without one
      alerts its error when that is non-empty. */
  lemma PortalAlwaysActs(reply: PortalReply, url: string, error: string)
    ensures var o := PortalResult(reply);
      || (o.Navigate? && o.url != "" && reply.url == Some(o.url))
      || (o.Alert? && o.message != "" && (reply.error == Some(o.message) || o.message == PortalFailedMessage))
    ensures url != "" ==> PortalResult(PortalReply(Some(url), reply.error)) == Navigate(url)
    ensures error != "" && !Truthy(reply.url) ==> PortalResult(PortalReply(reply.url, Some(error))) == Alert(error)
  {
  }

  /** The lower part of the page: member links or the subscribe link. */
  datatype Panel =
    | MemberPanel(status: Option<string>)  // "Go to Videos" and "Manage billing"
    | SubscribePanel                       // "No active subscription." and "Subscribe"

  datatype View =
    | NotSignedIn
    | Dashboard(identity: string, shownError: Option<string>, panel: Panel)

  /** The rendered page for a user, the selected row and the recorded
      confirmation error. */
  function Render(user: Option<User>, sub: Option<SubRow>, confirmErr: Option<string>, now: int): (v: View)
    ensures user.None? <==> v.NotSignedIn?
    ensures v.Dashboard? ==> (v.panel.MemberPanel? <==> IsEntitled(sub, now))
    ensures v.Dashboard? ==> v.identity == Identity(user)
    ensures v.Dashboard? ==> (v.shownError.Some? <==> Truthy(confirmErr))
    ensures v.Dashboard? && v.shownError.Some? ==> v.shownError == confirmErr
    ensures v.Dashboard? && v.panel.MemberPanel? ==> v.panel.status == (if sub.Some? then sub.value.status else None)
  {
    if user.None? then NotSignedIn
    else
      var panel := if Active(sub, now) then MemberPanel(if sub.Some? then sub.value.status else None) else SubscribePanel;
      Dashboard(Identity(user), if Truthy(confirmErr) then confirmErr else None, panel)
  }

  /** The dashboard names the signed-in user by their own email, or by
      their id when they have no email: the "Unknown user" fallback is
      never what a signed-in user sees unless it is their own email or id. */
  lemma DashboardNamesTheUser(user: User, sub: Option<SubRow>, confirmErr: Option<string>, now: int)
    ensures var v := Render(Some(user), sub, confirmErr, now);
      && v.Dashboard?
      && (user.email.Some? ==> v.identity == user.email.value)
      && (user.email.None? ==> v.identity == user.id)
      && (v.identity == "Unknown user" ==> user.email == Some("Unknown user") || user.id == "Unknown user")
  {
  }

  /** "Go to Videos" and "Manage billing" appear only for an entitled row;
      without one the page offers "Subscribe", and with no row at all it
      never shows the member links. */
  lemma MemberLinksOnlyWhenEntitled(user: User, sub: Option<SubRow>, confirmErr: Option<string>, now: int)
    ensures Render(Some(user), sub, confirmErr, now).panel.MemberPanel? <==> IsEntitled(sub, now)
    ensures sub.None? ==> Render(Some(user), sub, confirmErr, now).panel == SubscribePanel
  {
  }
}

=== FILE: admin.dfy ===
/**
  The admin confirmation route (`POST /api/admin/confirm`): a bearer-secret
  gate, then a forced email confirmation of the user named in the body.

  The configured secret, the request body and the outcome of the update call
  are inputs; the calls the request makes are part of the result.
 */
module AdminConfirm {
  import opened Common
  import opened Text

  const BearerPrefix: string := "Bearer "

  /** The `user_id` property of the parsed body. */
  datatype UserIdField = Absent | Str(s: string) | NonString

  /** The request body: unparseable JSON (read as `{}`), the JSON literal
      `null` (whose destructuring throws outside any `try`), or any other JSON
      value with its `user_id` property. */
  datatype RequestBody = Unparseable | JsonNull | JsonValue(userId: UserIdField)

  /** The user the update call returns; `data.user` may be null, in which
      case both fields read as `undefined`. */
  datatype UpdatedUser = UpdatedUser(id: Option<string>, email: Option<string>)

  /** The calls the request makes, in order. */
  datatype Call = ReadBody | UpdateUserById(userId: string)

  datatype Response =
    | Unauthorized                                 // 401 {error: 'Unauthorized'}
    | MissingUserId                                // 400 {error: 'Missing user_id'}
    | UpdateFailed(message: string)                // 500 {error: message}
    | Confirmed(id: Option<string>, email: Option<string>)  // 200 {ok: true, user: {id, email}}
    | Uncaught                                     // the framework's 500 for an uncaught throw

  function HttpStatus(r: Response): int {
    match r
    case Unauthorized => 401
    case MissingUserId => 400
    case UpdateFailed(_) => 500
    case Confirmed(_, _) => 200
    case Uncaught => 500
  }

  /** The token: what follows a leading "Bearer " in the `authorization`
      header, or "" when the header is absent or lacks that prefix. */
  function BearerToken(header: Option<string>): (token: string)
    ensures StartsWith(header.GetOr(""), BearerPrefix) ==> header.GetOr("") == BearerPrefix + token
    ensures !StartsWith(header.GetOr(""), BearerPrefix) ==> token == ""
  {
    var auth := OrElse(header, "");
    if StartsWith(auth, BearerPrefix) then auth[|BearerPrefix|..] else ""
  }

  /** The token comes back out of a well-formed header unchanged. */
  lemma BearerRoundTrip(token: string)
    ensures BearerToken(Some(BearerPrefix + token)) == token
  {
    assert (BearerPrefix + token)[..|BearerPrefix|] == BearerPrefix;
  }

  /** The gate: a non-empty token equal to the configured secret. */
  predicate Authorized(header: Option<string>, secret: Option<string>) {
    var token := BearerToken(header);
    token != "" && secret == Some(token)
  }

  /** The `POST` handler: its response and the calls it made. */
  function Post(header: Option<string>, secret: Option<string>, body: RequestBody, update: Result<UpdatedUser>): (r: (Response, seq<Call>))
    ensures !Authorized(header, secret) ==> r == (Unauthorized, [])
    ensures Authorized(header, secret) ==> |r.1| >= 1 && r.1[0] == ReadBody
    ensures r.0 == MissingUserId ==> r.1 == [ReadBody]
    ensures Authorized(header, secret) && (body.Unparseable? || (body.JsonValue? && !(body.userId.Str? && body.userId.s != ""))) ==>
              r == (MissingUserId, [ReadBody])
    ensures Authorized(header, secret) && body.JsonNull? ==> r == (Uncaught, [ReadBody])
    ensures (exists i :: 0 <= i < |r.1| && r.1[i].UpdateUserById?) ==>
              (body.JsonValue? && body.userId.Str? && body.userId.s != ""
               && r.1 == [ReadBody, UpdateUserById(body.userId.s)])
    ensures r.0.Confirmed? ==> update.Ok? && r.0 == Confirmed(update.value.id, update.value.email)
    ensures r.0.UpdateFailed? ==> update.Err? && r.0.message == update.message
    ensures Authorized(header, secret) && body.JsonValue? && body.userId.Str? && body.userId.s != "" ==>
              && r.1 == [ReadBody, UpdateUserById(body.userId.s)]
              && r.0 == (if update.Ok? then Confirmed(update.value.id, update.value.email) else UpdateFailed(update.message))
    ensures HttpStatus(r.0) == 401 <==> !Authorized(header, secret)
    ensures HttpStatus(r.0) == 400 ==> r.1 == [ReadBody]
    ensures HttpStatus(r.0) == 200 ==> update.Ok?
  {
    if !Authorized(header, secret) then (Unauthorized, [])
    else
      match body
      case JsonNull => (Uncaught, [ReadBody])
      case Unparseable => (MissingUserId, [ReadBody])
      case JsonValue(field) =>
        if !(field.Str? && field.s != "") then (MissingUserId, [ReadBody])
        else
          var calls := [ReadBody, UpdateUserById(field.s)];
          match update
          case Err(m) => (UpdateFailed(m), calls)
          case Ok(u) => (Confirmed(u.id, u.email), calls)
  }

  /** With no secret configured every request is refused, before its body
      is read. */
  lemma UnsetSecretRejectsAll(header: Option<string>, body: RequestBody, update: Result<UpdatedUser>)
    ensures Post(header, None, body, update) == (Unauthorized, [])
  {
  }

  /** The right secret with a proper `user_id` confirms exactly that user. */
  lemma SecretAdmitsRequest(secret: string, userId: string, update: Result<UpdatedUser>)
    requires secret != "" && userId != ""
    ensures Post(Some(BearerPrefix + secret), Some(secret), JsonValue(Str(userId)), update).1
              == [ReadBody, UpdateUserById(userId)]
  {
    BearerRoundTrip(secret);
  }
}

=== FILE: callback.dfy ===
/**
  The post-login callback page (`/auth/callback`): one run of its effect,
  from the `code` query parameter to the single `router.replace` it issues.

  The outcomes of the code exchange, the user lookup and the subscription
  lookup are inputs; the run is the sequence of calls the effect makes.
 */
module AuthCallback {
  import opened Common
  import opened Entitlement

  const CallbackErrorTarget: string := "/login?error=callback"
  const NoUserTarget: string := "/login?error=nouser"
  const MemberTarget: string := "/videos"
  const OfferTarget: string := "/pricing"

  /** The calls one run makes, in order. */
  datatype Call =
    | ExchangeCode(code: string)
    | GetUser
    | SelectSubscription(userId: string)
    | Replace(target: string)

  /** The inline `isSubscriber` check of the callback page, in its JavaScript
      form (`notExpired` computed first, then the status test); it is the
      entitlement rule. */
  function IsSubscriber(data: Option<SubRow>, now: int): (r: bool)
    ensures r <==> IsEntitled(data, now)
  {
    IncludesActive(StatusOf(data));
    ExpiryTestAgrees(PeriodEndOf(data), now);
    var notExpired := data.Some? && (!PeriodTruthy(PeriodEndOf(data)) || After(GetTime(PeriodEndOf(data)), now));
    data.Some? && Includes(ActiveStatusList, StatusOf(data).GetOr("")) && notExpired
  }

  /** One run of the effect. `exchangeFailed` is the exchange outcome for
      the given code, `user` the id `getUser` returns, `row` the row the
      subscription query selects for that user. */
  function Run(code: Option<string>, exchangeFailed: bool, user: Option<string>, row: Option<SubRow>, now: int): (calls: seq<Call>)
    ensures |calls| >= 2 && calls[|calls| - 1].Replace?
    ensures Truthy(code) <==> calls[0].ExchangeCode?
    ensures Truthy(code) ==> calls[0] == ExchangeCode(code.value)
    ensures Truthy(code) && exchangeFailed ==> calls == [ExchangeCode(code.value), Replace(CallbackErrorTarget)]
    ensures !(Truthy(code) && exchangeFailed) && user.None? ==>
              calls == (if Truthy(code) then [ExchangeCode(code.value)] else []) + [GetUser, Replace(NoUserTarget)]
    ensures !(Truthy(code) && exchangeFailed) && user.Some? ==>
              calls == (if Truthy(code) then [ExchangeCode(code.value)] else [])
                         + [GetUser, SelectSubscription(user.value),
                            Replace(if IsEntitled(row, now) then MemberTarget else OfferTarget)]
  {
    var exchange := if Truthy(code) then [ExchangeCode(code.value)] else [];
    if Truthy(code) && exchangeFailed then exchange + [Replace(CallbackErrorTarget)]
    else if user.None? then exchange + [GetUser, Replace(NoUserTarget)]
    else
      var target := if IsSubscriber(row, now) then MemberTarget else OfferTarget;
      exchange + [GetUser, SelectSubscription(user.value), Replace(target)]
  }

  /** The target of a run: the argument of its final `router.replace`. */
  function Target(calls: seq<Call>): string
    requires |calls| > 0 && calls[|calls| - 1].Replace?
  {
    calls[|calls| - 1].target
  }

  /** Number of `router.replace` calls in a run. */
  function Replaces(calls: seq<Call>): nat {
    if |calls| == 0 then 0
    else Replaces(calls[..|calls| - 1]) + (if calls[|calls| - 1].Replace? then 1 else 0)
  }

  /** Every run issues exactly one `router.replace`, as its last call. */
  lemma ExactlyOneReplace(code: Option<string>, exchangeFailed: bool, user: Option<string>, row: Option<SubRow>, now: int)
    ensures Replaces(Run(code, exchangeFailed, user, row, now)) == 1
  {
    var calls := Run(code, exchangeFailed, user, row, now);
    var k := |calls| - 1;
    assert forall i :: 0 <= i < k ==> !calls[i].Replace?;
    NoReplaceBefore(calls[..k]);
    assert calls[..k] == calls[..|calls| - 1];
  }

  /** A trace without any `router.replace` call counts no replaces. */
  lemma {:induction false} NoReplaceBefore(calls: seq<Call>)
    requires forall i :: 0 <= i < |calls| ==> !calls[i].Replace?
    ensures Replaces(calls) == 0
  {
    if |calls| > 0 {
      NoReplaceBefore(calls[..|calls| - 1]);
    }
  }

  /** An absent row never routes to the gallery, and a signed-in user
      without a row is sent to the pricing page: routing fails closed. */
  lemma AbsentRowRoutesToPricing(code: Option<string>, exchangeFailed: bool, user: Option<string>, now: int)
    ensures Target(Run(code, exchangeFailed, user, None, now)) != MemberTarget
    ensures user.Some? && !(Truthy(code) && exchangeFailed) ==> Target(Run(code, exchangeFailed, user, None, now)) == OfferTarget
  {
  }

  /** Without a truthy code no exchange is attempted. */
  lemma NoCodeNoExchange(code: Option<string>, exchangeFailed: bool, user: Option<string>, row: Option<SubRow>, now: int)
    requires !Truthy(code)
    ensures forall i :: 0 <= i < |Run(code, exchangeFailed, user, row, now)| ==> !Run(code, exchangeFailed, user, row, now)[i].ExchangeCode?
  {
  }
}

=== FILE: checkout.dfy ===
/**
  The checkout route (`POST /api/checkout`): it validates the request body
  and asks Stripe for a subscription checkout session whose metadata names
  the user and whose success URL returns to the account page with the
  session id.

  The outcome of `stripe.checkout.sessions.create` is an input; the
  parameters the route passes to it are part of the result.
 */
module Checkout {
  import opened Common

  /** The placeholder Stripe replaces with the session id on redirect. */
  const SessionIdPlaceholder: string := "{CHECKOUT_SESSION_ID}"

  const MissingFieldsMessage: string := "Missing priceId, email, or userId"

  /** The request body: it fails to parse or is JSON `null` (reading a
      property of `null` throws), or it carries the three optional fields.
      Any other JSON value, a number or a string say, reads as three absent
      fields. */
  datatype RequestBody =
    | Malformed(message: string)
    | Fields(priceId: Option<string>, email: Option<string>, userId: Option<string>)

  datatype LineItem = LineItem(price: string, quantity: nat)

  /** The arguments of `stripe.checkout.sessions.create`. */
  datatype SessionParams = SessionParams(
    mode: string,
    lineItems: seq<LineItem>,
    customerEmail: string,
    successUrl: string,
    cancelUrl: string,
    metadata: map<string, string>)

  /** What Stripe returns for a created session: its hosted page URL, which
      may be null. */
  datatype CreatedSession = CreatedSession(url: Option<string>)

  datatype Body = UrlBody(url: string) | ErrorBody(error: string)

  /** The response, and the session creations the request asked for. */
  datatype Reply = Reply(httpStatus: int, body: Body, requested: seq<SessionParams>)

  /** The success URL: the site URL (printed as "undefined" when the
      variable is unset), then the account page with the session id. */
  function SuccessUrl(siteUrl: Option<string>): string {
    TemplateText(siteUrl) + "/account?session_id=" + SessionIdPlaceholder
  }

  function CancelUrl(siteUrl: Option<string>): string {
    TemplateText(siteUrl) + "/pricing"
  }

  /** The session parameters for validated fields. */
  function Params(priceId: string, email: string, userId: string, siteUrl: Option<string>): (p: SessionParams)
    ensures p.mode == "subscription"
    ensures p.lineItems == [LineItem(priceId, 1)]
    ensures p.customerEmail == email
    ensures p.metadata == map["user_id" := userId]
    ensures p.successUrl == SuccessUrl(siteUrl) && p.cancelUrl == CancelUrl(siteUrl)
  {
    SessionParams("subscription", [LineItem(priceId, 1)], email, SuccessUrl(siteUrl), CancelUrl(siteUrl),
                  map["user_id" := userId])
  }

  /** The `POST` handler. `created` is Stripe's answer to the creation
      request, used only when one is made. */
  function Post(body: RequestBody, siteUrl: Option<string>, created: Result<CreatedSession>): (r: Reply)
    ensures body.Malformed? ==> r == Reply(500, ErrorBody(body.message), [])
    ensures body.Fields? && !(Truthy(body.priceId) && Truthy(body.email) && Truthy(body.userId)) ==>
              r == Reply(400, ErrorBody(MissingFieldsMessage), [])
    ensures |r.requested| > 0 ==>
              body.Fields? && Truthy(body.priceId) && Truthy(body.email) && Truthy(body.userId)
              && r.requested == [Params(body.priceId.value, body.email.value, body.userId.value, siteUrl)]
    ensures body.Fields? && Truthy(body.priceId) && Truthy(body.email) && Truthy(body.userId) ==>
              |r.requested| == 1
              && (created.Err? ==> r.httpStatus == 500 && r.body == ErrorBody(created.message))
              && (created.Ok? ==> r.httpStatus == 200 && r.body == UrlBody(created.value.url.GetOr("")))
  {
    match body
    case Malformed(m) => Reply(500, ErrorBody(m), [])
    case Fields(p, e, u) =>
      var priceId := p.GetOr("");
      var email := e.GetOr("");
      var userId := u.GetOr("");
      if priceId == "" || email == "" || userId == "" then Reply(400, ErrorBody(MissingFieldsMessage), [])
      else
        var params := Params(priceId, email, userId, siteUrl);
        match created
        case Err(m) => Reply(500, ErrorBody(m), [params])
        case Ok(session) => Reply(200, UrlBody(session.url.GetOr("")), [params])
  }

  /** The created session carries the requesting user's id under
      `user_id`, non-empty. */
  lemma MetadataNamesUser(priceId: string, email: string, userId: string, siteUrl: Option<string>, created: Result<CreatedSession>)
    requires priceId != "" && email != "" && userId != ""
    ensures var r := Post(Fields(Some(priceId), Some(email), Some(userId)), siteUrl, created);
      |r.requested| == 1 && "user_id" in r.requested[0].metadata
      && r.requested[0].metadata["user_id"] == userId && userId != ""
  {
  }
}

=== FILE: common.dfy ===
/**
  Shared vocabulary for the model: optional values (JavaScript `null` /
  `undefined`), results of calls into collaborators that may throw, and the
  JavaScript truthiness and nullish-coalescing rules the pages and routes use
  on optional strings.
 */
module Common {

  /** A value that may be `null` or `undefined`. */
  datatype Option<+T> = None | Some(value: T) {

    /** `this ?? default`: the value unless it is nullish. */
    function GetOr(default: T): T {
      match this
      case Some(v) => v
      case None => default
    }
  }

  /** The outcome of a call that either returns a value or throws an `Error`
      carrying a message. */
  datatype Result<+T> = Ok(value: T) | Err(message: string)

  /** JavaScript truthiness of a `string | null | undefined`: only a present,
      non-empty string is truthy. */
  predicate Truthy(o: Option<string>) {
    o.Some? && o.value != ""
  }

  /** `o || fallback` on an optional string. */
  function OrElse(o: Option<string>, fallback: string): (r: string)
    ensures Truthy(o) ==> r == o.value
    ensures !Truthy(o) ==> r == fallback
  {
    if o.Some? && o.value != "" then o.value else fallback
  }

  /** How a template literal `${x}` renders an optional string: an absent
      environment variable prints as the word "undefined". */
  function TemplateText(o: Option<string>): (r: string)
    ensures o.Some? ==> r == o.value
    ensures o.None? ==> r == "undefined"
  {
    match o
    case Some(s) => s
    case None => "undefined"
  }
}

=== FILE: confirm.dfy ===
/**
  The checkout confirmation route (`GET /api/stripe/confirm`): it looks up
  the checkout session named by `session_id`, checks that it links a
  subscription to a user, converts the period end, and upserts one
  `subscriptions` row keyed by the Stripe subscription id.

  The Stripe lookup and the database write are inputs (their outcome for
  this request); the store is a map from `stripe_subscription_id` to row,
  which is what the upsert's conflict key makes of the table.
 */
module StripeConfirm {
  import opened Common
  import opened Entitlement

  /** The query parameter the route reads. */
  const SessionIdParam: string := "session_id"

  /** The largest magnitude, in milliseconds, of a valid JavaScript `Date`;
      `toISOString` throws a `RangeError` beyond it. */
  const MaxTimeMs: int := 8_640_000_000_000_000

  const MissingSessionMessage: string := "Missing session_id"
  const MissingLinkageMessage: string := "Missing subscription or user metadata"
  const InvalidTimeMessage: string := "Invalid time value"

  /** `session.customer`: an id, null, or an expanded customer object. */
  datatype Customer = CustomerId(id: string) | NoCustomer | CustomerObject

  /** The subscription object expanded into the checkout session. */
  datatype StripeSubscription = StripeSubscription(id: string, status: string, currentPeriodEnd: Option<int>)

  /** The checkout session as retrieved, with its subscription expanded. */
  datatype CheckoutSession = CheckoutSession(
    subscription: Option<StripeSubscription>,
    metadata: Option<map<string, string>>,
    customer: Customer)

  /** A `subscriptions` row as this route writes it. */
  datatype StoredRow = StoredRow(
    userId: string,
    customerId: string,
    subscriptionId: string,
    status: string,
    periodEnd: PeriodEnd)

  /** The table, keyed by its unique `stripe_subscription_id`. */
  type Store = map<string, StoredRow>

  /** Each row sits under its own subscription id. */
  ghost predicate WellKeyed(store: Store) {
    forall k :: k in store ==> store[k].subscriptionId == k
  }

  /** The calls a request makes to its collaborators, in order. */
  datatype Call = Retrieve(sessionId: string) | UpsertRow(row: StoredRow)

  /** The JSON body: `{ok: true, status}` or `{error}`. */
  datatype Body = Confirmed(status: string) | Failed(error: string)

  datatype Outcome = Outcome(httpStatus: int, body: Body, store: Store, calls: seq<Call>)

  /** `String(session.customer)`. */
  function CustomerText(c: Customer): (r: string)
    ensures c.CustomerId? ==> r == c.id
    ensures c.NoCustomer? ==> r == "null"
    ensures c.CustomerObject? ==> r == "[object Object]"
  {
    match c
    case CustomerId(id) => id
    case NoCustomer => "null"
    case CustomerObject => "[object Object]"
  }

  /** `meta?.user_id`. */
  function UserIdOf(metadata: Option<map<string, string>>): (r: Option<string>)
    ensures r.Some? <==> metadata.Some? && "user_id" in metadata.value
    ensures r.Some? ==> r.value == metadata.value["user_id"]
  {
    if metadata.Some? && "user_id" in metadata.value then Some(metadata.value["user_id"]) else None
  }

  /** The stored period end: null for an absent or zero `current_period_end`,
      otherwise the instant at that many seconds, or the `RangeError` that
      `toISOString` throws when the instant is not a valid date. */
  function PeriodEndFrom(seconds: Option<int>): (r: Result<PeriodEnd>)
    ensures (seconds.None? || seconds == Some(0)) ==> r == Ok(Null)
    ensures seconds.Some? && seconds.value != 0 && -MaxTimeMs <= seconds.value * 1000 <= MaxTimeMs ==>
              r == Ok(Parsed(seconds.value * 1000))
    ensures seconds.Some? && (seconds.value * 1000 < -MaxTimeMs || MaxTimeMs < seconds.value * 1000) ==>
              r == Err(InvalidTimeMessage)
  {
    match seconds
    case None => Ok(Null)
    case Some(s) =>
      if s == 0 then Ok(Null)
      else if -MaxTimeMs <= s * 1000 <= MaxTimeMs then Ok(Parsed(s * 1000))
      else Err(InvalidTimeMessage)
  }

  /** The upsert on conflict key `stripe_subscription_id`: insert the row,
      or replace the one already stored under the same id. */
  function Upsert(store: Store, row: StoredRow): (s: Store)
    ensures row.subscriptionId in s && s[row.subscriptionId] == row
    ensures s.Keys == store.Keys + {row.subscriptionId}
    ensures forall k :: k in store && k != row.subscriptionId ==> s[k] == store[k]
    ensures WellKeyed(store) ==> WellKeyed(s)
  {
    store[row.subscriptionId := row]
  }

  /** Upserting the same row twice leaves the table as upserting it once. */
  lemma UpsertIdempotent(store: Store, row: StoredRow)
    ensures Upsert(Upsert(store, row), row) == Upsert(store, row)
  {
  }

  /** The `GET` handler. `sessionId` is the query parameter, `retrieved` the
      outcome of retrieving that session from Stripe, `writeError` the message
      of the error the upsert reports (if any), `store` the table before the
      request. */
  function Confirm(sessionId: Option<string>, retrieved: Result<CheckoutSession>, writeError: Option<string>, store: Store): (o: Outcome)
    ensures !Truthy(sessionId) ==> o == Outcome(400, Failed(MissingSessionMessage), store, [])
    ensures Truthy(sessionId) ==> |o.calls| >= 1 && o.calls[0] == Retrieve(sessionId.value)
    ensures Truthy(sessionId) && retrieved.Err? ==> o == Outcome(500, Failed(retrieved.message), store, [Retrieve(sessionId.value)])
    ensures Truthy(sessionId) && retrieved.Ok? && (retrieved.value.subscription.None? || !Truthy(UserIdOf(retrieved.value.metadata))) ==>
              o == Outcome(400, Failed(MissingLinkageMessage), store, [Retrieve(sessionId.value)])
    ensures o.httpStatus != 200 ==> o.store == store && o.body.Failed?
    ensures o.httpStatus == 200 ==> o.body.Confirmed? && |o.calls| == 2 && o.calls[1].UpsertRow? && o.store == Upsert(store, o.calls[1].row)
    ensures o.httpStatus in {200, 400, 500}
    ensures Truthy(sessionId) && retrieved.Ok? && retrieved.value.subscription.Some? && Truthy(UserIdOf(retrieved.value.metadata)) ==>
              var session := retrieved.value;
              var sub := session.subscription.value;
              var periodEnd := PeriodEndFrom(sub.currentPeriodEnd);
              && (periodEnd.Err? ==> o == Outcome(500, Failed(periodEnd.message), store, [Retrieve(sessionId.value)]))
              && (periodEnd.Ok? ==>
                    var row := StoredRow(UserIdOf(session.metadata).value, CustomerText(session.customer), sub.id, sub.status, periodEnd.value);
                    && (writeError.Some? ==>
                          o == Outcome(500, Failed(writeError.value), store, [Retrieve(sessionId.value), UpsertRow(row)]))
                    && (writeError.None? ==>
                          o == Outcome(200, Confirmed(sub.status), Upsert(store, row), [Retrieve(sessionId.value), UpsertRow(row)])))
  {
    if !Truthy(sessionId) then Outcome(400, Failed(MissingSessionMessage), store, [])
    else
      var retrieve := [Retrieve(sessionId.value)];
      match retrieved
      case Err(m) => Outcome(500, Failed(m), store, retrieve)
      case Ok(session) =>
        var userId := UserIdOf(session.metadata);
        if session.subscription.None? || !Truthy(userId) then
          Outcome(400, Failed(MissingLinkageMessage), store, retrieve)
        else
          var sub := session.subscription.value;
          match PeriodEndFrom(sub.currentPeriodEnd)
          case Err(m) => Outcome(500, Failed(m), store, retrieve)
          case Ok(periodEnd) =>
            var row := StoredRow(userId.value, CustomerText(session.customer), sub.id, sub.status, periodEnd);
            var calls := retrieve + [UpsertRow(row)];
            match writeError
            case Some(m) => Outcome(500, Failed(m), store, calls)
            case None => Outcome(200, Confirmed(sub.status), Upsert(store, row), calls)
  }

  /** A successful confirmation writes exactly the session's data under the
      subscription id, answers with the subscription status, and leaves every
      other row as it was. */
  lemma ConfirmSuccess(sessionId: string, session: CheckoutSession, store: Store)
    requires sessionId != ""
    requires session.subscription.Some? && Truthy(UserIdOf(session.metadata))
    requires PeriodEndFrom(session.subscription.value.currentPeriodEnd).Ok?
    ensures var o := Confirm(Some(sessionId), Ok(session), None, store);
      var sub := session.subscription.value;
      && o.httpStatus == 200
      && o.body == Confirmed(sub.status)
      && sub.id in o.store
      && o.store[sub.id] == StoredRow(UserIdOf(session.metadata).value, CustomerText(session.customer), sub.id,
                                      sub.status, PeriodEndFrom(sub.currentPeriodEnd).value)
      && o.store.Keys == store.Keys + {sub.id}
      && (forall k :: k in store && k != sub.id ==> o.store[k] == store[k])
  {
  }

  /** Confirming the same session twice, with the same answers from Stripe
      and the database, leaves the table as confirming it once. */
  lemma ConfirmIdempotent(sessionId: Option<string>, retrieved: Result<CheckoutSession>, writeError: Option<string>, store: Store)
    ensures var once := Confirm(sessionId, retrieved, writeError, store);
      var twice := Confirm(sessionId, retrieved, writeError, once.store);
      twice.store == once.store && twice.body == once.body && twice.httpStatus == once.httpStatus
  {
    var once := Confirm(sessionId, retrieved, writeError, store);
    if once.httpStatus == 200 {
      UpsertIdempotent(store, once.calls[1].row);
    }
  }

  /** Every request keeps the table keyed by subscription id, so one
      subscription id never names two rows. */
  lemma ConfirmKeepsKeying(sessionId: Option<string>, retrieved: Result<CheckoutSession>, writeError: Option<string>, store: Store)
    requires WellKeyed(store)
    ensures WellKeyed(Confirm(sessionId, retrieved, writeError, store).store)
  {
  }
}

=== FILE: diag.dfy ===
/**
  The diagnostics route (`GET /api/diag`): a report of which environment
  variables are set, with the two secret keys shown only through `reveal`,
  which keeps at most their first six characters and their length.
 */
module Diag {
  import opened Common
  import opened Text

  const Missing: string := "MISSING"
  const Set: string := "SET"

  /** How many leading characters `reveal` keeps. */
  const ShownPrefix: nat := 6

  /** The separator `reveal` writes between prefix and length: an ellipsis
      and the opening parenthesis. */
  const EllipsisParen: string := "\U{2026}("

  function Min(a: nat, b: nat): nat {
    if a <= b then a else b
  }

  /** `v.slice(0, 6)`. */
  function Head(v: string): (h: string)
    ensures |h| == Min(ShownPrefix, |v|) && h == v[..|h|]
  {
    v[..Min(ShownPrefix, |v|)]
  }

  /** `reveal(v)`: "MISSING" for an unset or empty value, otherwise its
      first six characters, "…(", its length in decimal, and ")". */
  function Reveal(v: Option<string>): (r: string)
    ensures !Truthy(v) ==> r == Missing
  {
    if Truthy(v) then Head(v.value) + EllipsisParen + Decimal(|v.value|) + ")" else Missing
  }

  /** The inverse of `reveal` on a set value: the prefix it shows and the
      length it reports, read from the right end (the prefix may itself
      contain any character, the length never contains "("). */
  function Unreveal(r: string): Option<(string, nat)> {
    if |r| < |EllipsisParen| + 2 || r[|r| - 1] != ')' then None
    else
      var body := r[..|r| - 1];
      var n := DigitRun(body);
      var split := |body| - n;
      if n == 0 || split < |EllipsisParen| || body[split - |EllipsisParen|..split] != EllipsisParen then None
      else Some((body[..split - |EllipsisParen|], ValueOf(body[split..])))
  }

  /** Length of the run of digits at the end of `s`. */
  function DigitRun(s: string): (n: nat)
    ensures n <= |s|
    ensures forall i :: |s| - n <= i < |s| ==> IsDigit(s[i])
    ensures n < |s| ==> !IsDigit(s[|s| - n - 1])
    decreases |s|
  {
    if |s| == 0 || !IsDigit(s[|s| - 1]) then 0 else DigitRun(s[..|s| - 1]) + 1
  }

  /** A revealed value shows the first `min(6, |v|)` characters of the value
      and its exact length, and nothing more: reading the output back gives
      exactly that pair. */
  lemma RevealRoundTrip(v: string)
    requires v != ""
    ensures Unreveal(Reveal(Some(v))) == Some((Head(v), |v|))
  {
    var h := Head(v);
    var d := Decimal(|v|);
    var body := h + EllipsisParen + d;
    var r := body + ")";
    assert Reveal(Some(v)) == r;
    assert r[..|r| - 1] == body;
    assert (h + EllipsisParen)[|h + EllipsisParen| - 1] == '(';
    DigitRunOfSuffix(h + EllipsisParen, d);
    var split := |body| - |d|;
    assert body[split - |EllipsisParen|..split] == EllipsisParen;
    assert body[..split - |EllipsisParen|] == h;
    assert body[split..] == d;
    DecimalRoundTrip(|v|);
  }

  /** The digit run at the end of `a + d` is `d` when `a` ends in a
      non-digit. */
  lemma DigitRunOfSuffix(a: string, d: string)
    requires |a| > 0 && !IsDigit(a[|a| - 1]) && |d| > 0 && AllDigits(d)
    ensures DigitRun(a + d) == |d|
  {
    var s := a + d;
    assert forall i :: |a| <= i < |s| ==> s[i] == d[i - |a|];
    assert s[|a| - 1] == a[|a| - 1];
  }

  /** The output depends exactly on the first six characters and the length
      of a value: two secrets that agree on those reveal alike, and two set
      secrets that reveal alike agree on those. */
  lemma RevealLeaksOnlyHeadAndLength(a: string, b: string)
    ensures |a| == |b| && Head(a) == Head(b) ==> Reveal(Some(a)) == Reveal(Some(b))
    ensures a != "" && b != "" && Reveal(Some(a)) == Reveal(Some(b)) ==> |a| == |b| && Head(a) == Head(b)
  {
    if a != "" && b != "" {
      RevealRoundTrip(a);
      RevealRoundTrip(b);
    }
  }

  /** The environment the route reads. */
  datatype Env = Env(
    supabaseUrl: Option<string>,
    anonKey: Option<string>,
    serviceRole: Option<string>,
    stripeSecretKey: Option<string>,
    priceId: Option<string>,
    siteUrl: Option<string>,
    nodeEnv: Option<string>)

  /** The JSON report; `nodeEnv` is omitted from the JSON when unset. */
  datatype Report = Report(
    supabaseUrl: string,
    anonKey: string,
    serviceRole: string,
    stripeSecretKey: string,
    priceId: string,
    siteUrl: string,
    nodeEnv: Option<string>)

  /** The `GET` handler. */
  function Get(env: Env): (r: Report)
    ensures r.anonKey == (if Truthy(env.anonKey) then Set else Missing)
    ensures r.supabaseUrl == OrElse(env.supabaseUrl, Missing)
    ensures r.priceId == OrElse(env.priceId, Missing)
    ensures r.siteUrl == OrElse(env.siteUrl, Missing)
    ensures r.serviceRole == Reveal(env.serviceRole) && r.stripeSecretKey == Reveal(env.stripeSecretKey)
    ensures r.nodeEnv == env.nodeEnv
  {
    Report(
      OrElse(env.supabaseUrl, Missing),
      if Truthy(env.anonKey) then Set else Missing,
      Reveal(env.serviceRole),
      Reveal(env.stripeSecretKey),
      OrElse(env.priceId, Missing),
      OrElse(env.siteUrl, Missing),
      env.nodeEnv)
  }

  /** The report never depends on the anon key's value, only on whether it
      is set, and depends on the secret keys only through their first six
      characters and lengths. */
  lemma ReportHidesSecrets(e1: Env, e2: Env)
    requires e1.supabaseUrl == e2.supabaseUrl && e1.priceId == e2.priceId
    requires e1.siteUrl == e2.siteUrl && e1.nodeEnv == e2.nodeEnv
    requires Truthy(e1.anonKey) == Truthy(e2.anonKey)
    requires Truthy(e1.serviceRole) == Truthy(e2.serviceRole)
    requires Truthy(e1.serviceRole) ==> |e1.serviceRole.value| == |e2.serviceRole.value|
                                         && Head(e1.serviceRole.value) == Head(e2.serviceRole.value)
    requires Truthy(e1.stripeSecretKey) == Truthy(e2.stripeSecretKey)
    requires Truthy(e1.stripeSecretKey) ==> |e1.stripeSecretKey.value| == |e2.stripeSecretKey.value|
                                             && Head(e1.stripeSecretKey.value) == Head(e2.stripeSecretKey.value)
    ensures Get(e1) == Get(e2)
  {
  }
}

=== FILE: entitlement.dfy ===
/**
  Entitlement: whether the latest `subscriptions` row of a signed-in user
  grants access to member-only videos at a given instant.

  The rule is written once here (`IsEntitled`), in the terms of the product
  rule: a row exists, its status is one of the active statuses, and its
  period end is unknown or still in the future. The three pages that gate on
  it each copy the check inline in JavaScript; those copies are modelled in
  their own modules against the JavaScript helpers below and proved equal to
  this rule.

  Instants are integers counting milliseconds since the Unix epoch; the
  caller supplies "now" (`Date.now()`).
 */
module Entitlement {
  import opened Common

  /** The `current_period_end` text column as `new Date(...)` sees it: SQL
      `null`, the empty string, a string that parses to an instant, or a
      string that does not parse (an invalid `Date`, whose time is NaN). */
  datatype PeriodEnd = Null | Empty | Parsed(ms: int) | Unparseable

  /** The part of a `subscriptions` row the pages select. `customerId` is
      only selected by the account page; the other pages ignore it. */
  datatype SubRow = SubRow(status: Option<string>, periodEnd: PeriodEnd, customerId: Option<string>)

  /** Statuses that grant access. */
  const ActiveStatuses: set<string> := {"active", "trialing"}

  /** The period end does not show the subscription as lapsed: it is not
      known yet, or it lies strictly after `now`. */
  predicate NotLapsed(pe: PeriodEnd, now: int) {
    match pe
    case Null => true
    case Empty => true
    case Parsed(ms) => now < ms
    case Unparseable => false
  }

  /** The reference entitlement rule. */
  predicate IsEntitled(row: Option<SubRow>, now: int) {
    && row.Some?
    && row.value.status.Some?
    && row.value.status.value in ActiveStatuses
    && NotLapsed(row.value.periodEnd, now)
  }

  // ---------------------------------------------------------------------
  // JavaScript semantics used by the inline copies of the rule.
  // ---------------------------------------------------------------------

  /** A JavaScript time value: a finite millisecond count or NaN. */
  datatype TimeValue = Finite(ms: int) | NaN

  /** The literal list `['active', 'trialing']` the pages search. */
  const ActiveStatusList: seq<string> := ["active", "trialing"]

  /** `list.includes(x)` on strings (strict equality). */
  predicate Includes(list: seq<string>, x: string) {
    exists i :: 0 <= i < |list| && list[i] == x
  }

  /** Truthiness of the period-end column: a non-empty string. */
  predicate PeriodTruthy(pe: PeriodEnd) {
    pe.Parsed? || pe.Unparseable?
  }

  /** `new Date(s).getTime()` for a non-empty period-end string. */
  function GetTime(pe: PeriodEnd): (t: TimeValue)
    requires PeriodTruthy(pe)
    ensures t.Finite? <==> pe.Parsed?
    ensures t.Finite? ==> t.ms == pe.ms
  {
    if pe.Parsed? then Finite(pe.ms) else NaN
  }

  /** `t > now`: every comparison with NaN is false. */
  predicate After(t: TimeValue, now: int) {
    t.Finite? && t.ms > now
  }

  /** `sub?.status`, which is `undefined` when there is no row. */
  function StatusOf(sub: Option<SubRow>): Option<string> {
    if sub.Some? then sub.value.status else None
  }

  /** `sub?.current_period_end`, which is `undefined` when there is no row. */
  function PeriodEndOf(sub: Option<SubRow>): PeriodEnd {
    if sub.Some? then sub.value.periodEnd else Null
  }

  /** The JavaScript status test agrees with membership in the active set,
      with a null status acting as the empty string. */
  lemma IncludesActive(status: Option<string>)
    ensures Includes(ActiveStatusList, status.GetOr("")) <==> (status.Some? && status.value in ActiveStatuses)
  {
    if status.Some? && status.value in ActiveStatuses {
      if status.value == "active" {
        assert ActiveStatusList[0] == status.value;
      } else {
        assert ActiveStatusList[1] == status.value;
      }
    }
  }

  /** The JavaScript expiry test agrees with `NotLapsed`. */
  lemma ExpiryTestAgrees(pe: PeriodEnd, now: int)
    ensures (!PeriodTruthy(pe) || After(GetTime(pe), now)) <==> NotLapsed(pe, now)
  {
  }

  // ---------------------------------------------------------------------
  // Properties of the rule.
  // ---------------------------------------------------------------------

  /** No row, no access: the rule fails closed. */
  lemma AbsentRowNotEntitled(now: int)
    ensures !IsEntitled(None, now)
  {
  }

  /** A period end equal to `now` has already lapsed. */
  lemma PeriodEndIsExclusive(status: Option<string>, customer: Option<string>, now: int)
    ensures !IsEntitled(Some(SubRow(status, Parsed(now), customer)), now)
  {
  }

  /** Only the exact strings "active" and "trialing" grant access. */
  lemma EntitledStatusIsExact(row: SubRow, now: int)
    requires IsEntitled(Some(row), now)
    ensures row.status == Some("active") || row.status == Some("trialing")
  {
  }

  /** An entitled row stays entitled for every earlier instant: access can
      only lapse as time moves forward. */
  lemma EntitlementOnlyLapses(row: Option<SubRow>, earlier: int, now: int)
    requires earlier <= now && IsEntitled(row, now)
    ensures IsEntitled(row, earlier)
  {
  }
}

=== FILE: flow.dfy ===
/**
  The subscription flow across routes: the checkout route creates a session
  whose metadata and success URL the account page and the confirm route rely
  on; the confirm route writes the row that the account page, the gallery
  and the callback page then read and judge with the entitlement rule.
 */
module SubscriptionFlow {
  import opened Common
  import opened Entitlement
  import Checkout
  import StripeConfirm
  import Account
  import Videos
  import AuthCallback

  /** A stored row as the pages select it back: the status, the period end
      (written as an ISO instant, read back as the same instant) and the
      customer id. */
  function Selected(row: StripeConfirm.StoredRow): (s: SubRow)
    ensures s.status == Some(row.status) && s.periodEnd == row.periodEnd && s.customerId == Some(row.customerId)
  {
    SubRow(Some(row.status), row.periodEnd, Some(row.customerId))
  }

  /** The session Stripe hands back for the parameters the checkout route
      sent: their metadata, the subscription it started and its customer. */
  function SessionFor(p: Checkout.SessionParams, sub: StripeConfirm.StripeSubscription, customer: StripeConfirm.Customer): (s: StripeConfirm.CheckoutSession)
    ensures s.metadata == Some(p.metadata) && s.subscription == Some(sub) && s.customer == customer
  {
    StripeConfirm.CheckoutSession(Some(sub), Some(p.metadata), customer)
  }

  /** The success URL the checkout route sends returns to the account page
      with the query parameter the account page and the confirm route both
      read. */
  lemma SuccessUrlCarriesSessionParam(siteUrl: Option<string>)
    ensures Checkout.SuccessUrl(siteUrl)
              == TemplateText(siteUrl) + "/account?" + Account.SessionIdParam + "=" + Checkout.SessionIdPlaceholder
    ensures Account.SessionIdParam == StripeConfirm.SessionIdParam
  {
  }

  /** A checkout request that passes validation produces a session the
      confirm route accepts, and the row it writes belongs to the user who
      asked for the checkout. */
  lemma CheckoutLinksUserToRow(priceId: string, email: string, userId: string, siteUrl: Option<string>,
                               created: Result<Checkout.CreatedSession>,
                               sessionId: string, sub: StripeConfirm.StripeSubscription,
                               customer: StripeConfirm.Customer, store: StripeConfirm.Store)
    requires priceId != "" && email != "" && userId != "" && sessionId != ""
    requires StripeConfirm.PeriodEndFrom(sub.currentPeriodEnd).Ok?
    ensures var r := Checkout.Post(Checkout.Fields(Some(priceId), Some(email), Some(userId)), siteUrl, created);
      && |r.requested| == 1
      && var o := StripeConfirm.Confirm(Some(sessionId), Ok(SessionFor(r.requested[0], sub, customer)), None, store);
      && o.httpStatus == 200
      && sub.id in o.store
      && o.store[sub.id].userId == userId
  {
    var r := Checkout.Post(Checkout.Fields(Some(priceId), Some(email), Some(userId)), siteUrl, created);
    var session := SessionFor(r.requested[0], sub, customer);
    assert StripeConfirm.UserIdOf(session.metadata) == Some(userId);
    StripeConfirm.ConfirmSuccess(sessionId, session, store);
  }

  /** The period end the confirm route stores has not lapsed at `now`
      exactly when it is absent or lies after `now`. */
  lemma StoredPeriodEndNotLapsed(seconds: Option<int>, now: int)
    requires StripeConfirm.PeriodEndFrom(seconds).Ok?
    ensures NotLapsed(StripeConfirm.PeriodEndFrom(seconds).value, now) <==>
              (seconds.None? || seconds == Some(0) || now < seconds.value * 1000)
  {
  }

  /** After a successful confirmation, the row under the subscription id
      entitles its user at `now` exactly when Stripe reported an active or
      trialing subscription whose period end is absent or after `now`; the
      account page, the gallery and the callback page all agree. */
  lemma ConfirmedRowEntitles(sessionId: string, session: StripeConfirm.CheckoutSession, store: StripeConfirm.Store, now: int)
    requires sessionId != ""
    requires session.subscription.Some? && Truthy(StripeConfirm.UserIdOf(session.metadata))
    requires StripeConfirm.PeriodEndFrom(session.subscription.value.currentPeriodEnd).Ok?
    ensures var o := StripeConfirm.Confirm(Some(sessionId), Ok(session), None, store);
      var sub := session.subscription.value;
      var row := Some(Selected(o.store[sub.id]));
      var seconds := sub.currentPeriodEnd;
      && (IsEntitled(row, now) <==>
            sub.status in ActiveStatuses && (seconds.None? || seconds == Some(0) || now < seconds.value * 1000))
      && Account.Active(row, now) == IsEntitled(row, now)
      && Videos.IsMember(row, now) == IsEntitled(row, now)
      && AuthCallback.IsSubscriber(row, now) == IsEntitled(row, now)
  {
    StripeConfirm.ConfirmSuccess(sessionId, session, store);
    StoredPeriodEndNotLapsed(session.subscription.value.currentPeriodEnd, now);
  }

  /** A canceled subscription confirmed through checkout never entitles,
      whatever its period end. */
  lemma CanceledRowDoesNotEntitle(sessionId: string, session: StripeConfirm.CheckoutSession, store: StripeConfirm.Store, now: int)
    requires sessionId != ""
    requires session.subscription.Some? && Truthy(StripeConfirm.UserIdOf(session.metadata))
    requires StripeConfirm.PeriodEndFrom(session.subscription.value.currentPeriodEnd).Ok?
    requires session.subscription.value.status == "canceled"
    ensures var o := StripeConfirm.Confirm(Some(sessionId), Ok(session), None, store);
      !IsEntitled(Some(Selected(o.store[session.subscription.value.id])), now)
  {
    ConfirmedRowEntitles(sessionId, session, store, now);
  }

  /** A confirmed row that entitles at `now` (an active or trialing
      subscription whose period end is absent or after `now`) sends its user
      from the login callback to the gallery, when the callback's query
      selects that row. Which row the query selects is an input: an older
      row of the same user may be selected instead. */
  lemma ConfirmedMemberRoutesToVideos(sessionId: string, session: StripeConfirm.CheckoutSession, store: StripeConfirm.Store,
                                      now: int, code: Option<string>, userId: string)
    requires sessionId != ""
    requires session.subscription.Some? && Truthy(StripeConfirm.UserIdOf(session.metadata))
    requires StripeConfirm.PeriodEndFrom(session.subscription.value.currentPeriodEnd).Ok?
    requires session.subscription.value.status in ActiveStatuses
    requires var seconds := session.subscription.value.currentPeriodEnd;
      seconds.None? || seconds == Some(0) || now < seconds.value * 1000
    ensures var o := StripeConfirm.Confirm(Some(sessionId), Ok(session), None, store);
      var calls := AuthCallback.Run(code, false, Some(userId), Some(Selected(o.store[session.subscription.value.id])), now);
      calls[|calls| - 1] == AuthCallback.Replace(AuthCallback.MemberTarget)
  {
    ConfirmedRowEntitles(sessionId, session, store, now);
  }

  /** The account page asks for a confirmation exactly for the session ids
      the confirm route acts on: for any value of the query parameter, the
      page's trigger fires exactly when the route, given that value, calls
      Stripe; the request the page sends makes the route retrieve that very
      session; and a value the page does not send is one the route would
      refuse with 400 and no call. */
  lemma TriggerMatchesRoute(sessionId: Option<string>, retrieved: Result<StripeConfirm.CheckoutSession>,
                            writeError: Option<string>, store: StripeConfirm.Store)
    ensures Account.ConfirmTrigger(sessionId).Some? <==> StripeConfirm.Confirm(sessionId, retrieved, writeError, store).calls != []
    ensures Account.ConfirmTrigger(sessionId).Some? ==>
              StripeConfirm.Confirm(Account.ConfirmTrigger(sessionId), retrieved, writeError, store).calls[0]
                == StripeConfirm.Retrieve(sessionId.value)
    ensures Account.ConfirmTrigger(sessionId).None? ==>
              var o := StripeConfirm.Confirm(sessionId, retrieved, writeError, store);
              o.httpStatus == 400 && o.store == store
  {
  }

  /** The reply the account page receives from the confirm route. */
  function ReplyOf(o: StripeConfirm.Outcome): (r: Account.ConfirmReply)
    ensures r.Reply? && r.body.Json?
    ensures r.ok <==> 200 <= o.httpStatus < 300
    ensures o.body.Failed? <==> r.body.error.Some?
    ensures o.body.Failed? ==> r.body.error == Some(o.body.error)
  {
    Account.Reply(200 <= o.httpStatus < 300,
                  Account.Json(if o.body.Failed? then Some(o.body.error) else None))
  }

  /** The account page records an error exactly when the confirm route did
      not answer 200, and then it records the route's own message, or
      "confirm failed" when that message is empty. */
  lemma AccountRecordsConfirmFailure(sessionId: Option<string>, retrieved: Result<StripeConfirm.CheckoutSession>,
                                     writeError: Option<string>, store: StripeConfirm.Store)
    ensures var o := StripeConfirm.Confirm(sessionId, retrieved, writeError, store);
      var e := Account.ConfirmError(ReplyOf(o));
      && (e.Some? <==> o.httpStatus != 200)
      && (e.Some? ==> e.value == OrElse(Some(o.body.error), Account.ConfirmFailedMessage))
  {
  }

  /** A checkout session without a customer stores the text "null" as the
      customer id, which is truthy, so the account page's billing guard lets
      the portal request through with that text. */
  lemma NullCustomerPassesPortalGuard(sessionId: string, session: StripeConfirm.CheckoutSession, store: StripeConfirm.Store)
    requires sessionId != ""
    requires session.subscription.Some? && Truthy(StripeConfirm.UserIdOf(session.metadata))
    requires StripeConfirm.PeriodEndFrom(session.subscription.value.currentPeriodEnd).Ok?
    requires session.customer == StripeConfirm.NoCustomer
    ensures var o := StripeConfirm.Confirm(Some(sessionId), Ok(session), None, store);
      Account.OpenBillingPortal(Some(Selected(o.store[session.subscription.value.id]))) == Account.RequestPortal("null")
  {
    StripeConfirm.ConfirmSuccess(sessionId, session, store);
  }
}

=== FILE: home.dfy ===
/**
  The landing page (`/`): when the location fragment carries an access
  token, the page forwards the whole fragment to the callback page.
 */
module Home {
  import opened Common
  import opened Text

  const TokenMarker: string := "access_token"
  const CallbackPath: string := "/auth/callback"

  /** The navigation the effect performs for a given `location.hash`
      (which includes its leading "#" when non-empty), or `None` when it
      stays on the page. */
  function Forward(hash: string): (target: Option<string>)
    ensures target.Some? <==> exists i :: OccursAt(hash, TokenMarker, i)
    ensures target.Some? ==> target.value == CallbackPath + hash
  {
    if Contains(hash, TokenMarker) then Some(CallbackPath + hash) else None
  }

  /** The forwarded target keeps the fragment unchanged as its suffix. */
  lemma ForwardKeepsFragment(hash: string)
    requires Forward(hash).Some?
    ensures |Forward(hash).value| == |CallbackPath| + |hash|
    ensures Forward(hash).value[|CallbackPath|..] == hash
  {
  }

  /** Any fragment holding the marker is forwarded. */
  lemma TokenFragmentIsForwarded(before: string, after: string)
    ensures Forward(before + TokenMarker + after) == Some(CallbackPath + (before + TokenMarker + after))
  {
    ContainsInfix(before, TokenMarker, after);
  }

  /** The test is case-sensitive: a fragment without a lower-case "a" (such
      as "#ACCESS_TOKEN=x") is never forwarded. */
  lemma UpperCaseMarkerIsNotForwarded(hash: string)
    requires forall k :: 0 <= k < |hash| ==> hash[k] != 'a'
    ensures Forward(hash) == None
  {
    if Contains(hash, TokenMarker) {
      ContainsNeedsFirstChar(hash, TokenMarker);
    }
  }
}

=== FILE: text.dfy ===
/**
  The handful of JavaScript string operations the core relies on, each with a
  contract in terms of positions: `startsWith`, `slice`, `includes`, and the
  decimal rendering of a length inside a template literal.
 */
module Text {
  import opened Common

  /** `p` occurs in `s` starting at index `i`. */
  ghost predicate OccursAt(s: string, p: string, i: int) {
    0 <= i && i + |p| <= |s| && s[i..i + |p|] == p
  }

  /** `s.startsWith(p)`. */
  predicate StartsWith(s: string, p: string) {
    |p| <= |s| && s[..|p|] == p
  }

  /** `s.includes(p)`: a case-sensitive substring test. */
  function Contains(s: string, p: string): (r: bool)
    ensures r <==> exists i :: OccursAt(s, p, i)
    decreases |s|
  {
    if |p| > |s| then false
    else if s[..|p|] == p then (assert OccursAt(s, p, 0); true)
    else (ShiftOccurrences(s, p); Contains(s[1..], p))
  }

  /** When `p` does not occur at index 0, the occurrences of `p` in `s` are
      exactly those in `s[1..]`, shifted by one. */
  lemma ShiftOccurrences(s: string, p: string)
    requires |p| <= |s| && s[..|p|] != p
    ensures (exists i :: OccursAt(s, p, i)) <==> (exists j :: OccursAt(s[1..], p, j))
  {
    if exists i :: OccursAt(s, p, i) {
      var i :| OccursAt(s, p, i);
      assert i != 0;
      assert s[1..][i - 1..i - 1 + |p|] == s[i..i + |p|];
      assert OccursAt(s[1..], p, i - 1);
    }
    if exists j :: OccursAt(s[1..], p, j) {
      var j :| OccursAt(s[1..], p, j);
      assert s[1..][j..j + |p|] == s[j + 1..j + 1 + |p|];
      assert OccursAt(s, p, j + 1);
    }
  }

  /** A string contains every string it is built around. */
  lemma ContainsInfix(a: string, p: string, b: string)
    ensures Contains(a + p + b, p)
  {
    assert (a + p + b)[|a|..|a| + |p|] == p;
    assert OccursAt(a + p + b, p, |a|);
  }

  /** Containment of a non-empty pattern needs its first character in the
      subject; this is why a differently-cased pattern never matches. */
  lemma ContainsNeedsFirstChar(s: string, p: string)
    requires |p| > 0 && Contains(s, p)
    ensures exists k :: 0 <= k < |s| && s[k] == p[0]
  {
    var i :| OccursAt(s, p, i);
    assert s[i..i + |p|][0] == s[i];
  }

  predicate IsDigit(c: char) {
    '0' <= c <= '9'
  }

  function DigitChar(d: nat): (c: char)
    requires d < 10
    ensures IsDigit(c) && (c as int) - ('0' as int) == d
  {
    (('0' as int) + d) as char
  }

  function DigitValue(c: char): (d: nat)
    requires IsDigit(c)
    ensures d < 10 && ('0' as int) + d == c as int
  {
    (c as int) - ('0' as int)
  }

  predicate AllDigits(s: string) {
    forall i :: 0 <= i < |s| ==> IsDigit(s[i])
  }

  /** The number written by a string of decimal digits, read left to right. */
  function ValueOf(s: string): nat
    requires AllDigits(s)
    decreases |s|
  {
    if |s| == 0 then 0 else ValueOf(s[..|s| - 1]) * 10 + DigitValue(s[|s| - 1])
  }

  /** How `${n}` renders a non-negative integer: decimal digits without
      leading zeros. */
  function Decimal(n: nat): (r: string)
    ensures |r| >= 1 && AllDigits(r)
    ensures r[0] == '0' ==> n == 0
    decreases n
  {
    if n < 10 then [DigitChar(n)] else Decimal(n / 10) + [DigitChar(n % 10)]
  }

  /** Reading a string of digits back as a number; `None` when it is empty or
      holds a non-digit. */
  function ParseDecimal(s: string): Option<nat> {
    if |s| > 0 && AllDigits(s) then Some(ValueOf(s)) else None
  }

  /** Rendering then reading a number gives it back. */
  lemma {:induction false} DecimalRoundTrip(n: nat)
    ensures ParseDecimal(Decimal(n)) == Some(n)
    decreases n
  {
    if n < 10 {
      var r := [DigitChar(n)];
      assert r[..|r| - 1] == [];
      assert ValueOf(r) == ValueOf([]) * 10 + DigitValue(r[0]);
    } else {
      DecimalRoundTrip(n / 10);
      var d := Decimal(n / 10);
      var r := d + [DigitChar(n % 10)];
      assert r[..|r| - 1] == d;
      assert ValueOf(r) == ValueOf(d) * 10 + n % 10;
    }
  }
}

=== FILE: trailers.dfy ===
/**
  The public trailers page (`/trailers`) and the age-confirmation route
  (`POST /api/age/confirm`): an age gate read from a cookie or from
  localStorage, the confirmation that sets both, and the list of public
  videos.

  The browser's cookie string and localStorage value are inputs; the state
  the page keeps is a value.
 */
module Trailers {
  import opened Common
  import opened Text

  const AgeKey: string := "age_ok_v1"
  const AgeValue: string := "1"

  /** The text the page searches the cookie string for. */
  const AgeCookiePair: string := AgeKey + "=" + AgeValue

  /** The `Set-Cookie` header the age route appends: the pair, then a
      one-year lifetime and its scope. */
  const AgeCookieHeader: string := AgeCookiePair + AgeCookieAttributes

  /** The attributes after the pair. The leading "; " is its own literal so
      that proofs can read its first character without expanding the whole
      string. */
  const AgeCookieAttributes: string := "; " + "Max-Age=31536000; Path=/; SameSite=Lax; Secure"

  /** What the page keeps: the gate flag and the localStorage entry it may
      write. */
  datatype GateState = GateState(ageOk: bool, stored: Option<string>)

  /** The state before any effect has run: the gate is closed. */
  function Initial(stored: Option<string>): (s: GateState)
    ensures !s.ageOk && s.stored == stored
  {
    GateState(false, stored)
  }

  /** The age check: the cookie string contains the pair, or the stored
      value is exactly "1". */
  predicate AgeOk(cookie: string, stored: Option<string>) {
    Contains(cookie, AgeCookiePair) || stored == Some(AgeValue)
  }

  /** The mount effect: the flag becomes the age check's answer. */
  function CheckAge(s: GateState, cookie: string): (t: GateState)
    ensures t.ageOk <==> (exists i :: OccursAt(cookie, AgeCookiePair, i)) || s.stored == Some(AgeValue)
    ensures t.stored == s.stored
  {
    GateState(AgeOk(cookie, s.stored), s.stored)
  }

  /** The calls `confirmAge` makes. */
  datatype Call = PostAgeConfirm

  /** `confirmAge`: post to the age route (a network error is swallowed),
      then store "1" and open the gate. `postThrows` is whether the post
      threw. */
  function ConfirmAge(s: GateState, postThrows: bool): (r: (GateState, seq<Call>))
    ensures r.0.ageOk && r.0.stored == Some(AgeValue)
    ensures r.1 == [PostAgeConfirm]
  {
    (GateState(true, Some(AgeValue)), [PostAgeConfirm])
  }

  /** The age overlay renders while the gate is closed. */
  predicate ShowsOverlay(s: GateState) {
    !s.ageOk
  }

  /** After a confirmation, whether or not the post failed, the overlay is
      gone, a later check on the same page passes on any cookie string, and
      a fresh page load that reads the stored "1" back from localStorage
      passes its check on any cookie string too. */
  lemma ConfirmedGateStaysOpen(s: GateState, postThrows: bool, cookie: string)
    ensures var t := ConfirmAge(s, postThrows).0;
      && !ShowsOverlay(t)
      && !ShowsOverlay(CheckAge(t, cookie))
      && !ShowsOverlay(CheckAge(Initial(t.stored), cookie))
  {
  }

  /** The overlay shows before the check and, after it, exactly when
      neither source carries the flag. */
  lemma OverlayIffNotConfirmed(stored: Option<string>, cookie: string)
    ensures ShowsOverlay(Initial(stored))
    ensures ShowsOverlay(CheckAge(Initial(stored), cookie)) <==> !AgeOk(cookie, stored)
  {
  }

  /** `document.cookie`: the cookies the browser holds, as "name=value"
      joined by "; ". */
  function CookieString(jar: seq<(string, string)>): string
    decreases |jar|
  {
    if |jar| == 0 then ""
    else if |jar| == 1 then jar[0].0 + "=" + jar[0].1
    else jar[0].0 + "=" + jar[0].1 + "; " + CookieString(jar[1..])
  }

  /** Each cookie of the jar appears in the cookie string as "name=value". */
  lemma {:induction false} CookieInString(jar: seq<(string, string)>, i: nat)
    requires i < |jar|
    ensures exists before, after :: CookieString(jar) == before + (jar[i].0 + "=" + jar[i].1) + after
    decreases |jar|
  {
    var pair := jar[i].0 + "=" + jar[i].1;
    if |jar| == 1 {
      assert CookieString(jar) == [] + pair + [];
    } else if i == 0 {
      assert CookieString(jar) == [] + pair + ("; " + CookieString(jar[1..]));
    } else {
      assert jar[1..][i - 1] == jar[i];
      CookieInString(jar[1..], i - 1);
      var before, after :| CookieString(jar[1..]) == before + pair + after;
      var head := jar[0].0 + "=" + jar[0].1 + "; ";
      assert CookieString(jar) == head + CookieString(jar[1..]);
      assert head + (before + pair + after) == (head + before) + pair + after;
    }
  }

  /** The cookie a browser stores from a `Set-Cookie` header: the text
      before the first ";", split at its first "=". */
  function SetCookiePair(header: string): (p: (string, string))
    ensures |p.0| <= |header| && |p.1| <= |header|
  {
    var first := UpTo(header, ';');
    var name := UpTo(first, '=');
    if |name| < |first| then (name, first[|name| + 1..]) else ("", first)
  }

  /** The prefix of `s` before the first `c`, or all of `s`. */
  function UpTo(s: string, c: char): (r: string)
    ensures |r| <= |s| && r == s[..|r|]
    ensures forall k :: 0 <= k < |r| ==> r[k] != c
    ensures |r| < |s| ==> s[|r|] == c
  {
    if |s| == 0 || s[0] == c then "" else [s[0]] + UpTo(s[1..], c)
  }

  /** `UpTo` stops at the first occurrence of `c`. */
  lemma UpToFirst(s: string, c: char, n: nat)
    requires n < |s| && s[n] == c
    requires forall k :: 0 <= k < n ==> s[k] != c
    ensures UpTo(s, c) == s[..n]
  {
  }

  /** A header "name=value" followed by attributes starting with ";" stores
      exactly that name and value, when the name holds no "=" or ";" and
      the value no ";". */
  lemma SetCookiePairOf(name: string, value: string, attributes: string)
    requires forall k :: 0 <= k < |name| ==> name[k] != '=' && name[k] != ';'
    requires forall k :: 0 <= k < |value| ==> value[k] != ';'
    requires |attributes| > 0 && attributes[0] == ';'
    ensures SetCookiePair(name + "=" + value + attributes) == (name, value)
  {
    var h := name + "=" + value + attributes;
    var pair := name + "=" + value;
    assert h[..|pair|] == pair;
    assert forall k :: 0 <= k < |name| ==> pair[k] == name[k];
    assert forall k :: |name| < k < |pair| ==> pair[k] == value[k - |name| - 1];
    assert pair[|name|] == '=';
    assert forall k :: 0 <= k < |pair| ==> h[k] == pair[k] && pair[k] != ';';
    assert h[|pair|] == ';';
    UpToFirst(h, ';', |pair|);
    assert UpTo(h, ';') == pair;
    UpToFirst(pair, '=', |name|);
    assert UpTo(pair, '=') == name;
    assert pair[|name| + 1..] == value;
  }

  /** The header the age route sets stores the cookie `age_ok_v1=1`. */
  lemma AgeHeaderStoresFlag()
    ensures SetCookiePair(AgeCookieHeader) == (AgeKey, AgeValue)
  {
    assert AgeCookieAttributes[0] == ';';
    SetCookiePairOf(AgeKey, AgeValue, AgeCookieAttributes);
  }

  /** Once the browser holds the cookie the age route sets, the age check
      passes, whatever other cookies it holds and whatever localStorage
      contains. */
  lemma RouteCookiePassesCheck(jar: seq<(string, string)>, i: nat, stored: Option<string>)
    requires i < |jar| && jar[i] == SetCookiePair(AgeCookieHeader)
    ensures AgeOk(CookieString(jar), stored)
  {
    AgeHeaderStoresFlag();
    CookieInString(jar, i);
    var before, after :| CookieString(jar) == before + AgeCookiePair + after;
    ContainsInfix(before, AgeCookiePair, after);
  }

  /** The check is a substring test, so a longer value that starts with
      "1" (such as `age_ok_v1=10`) passes it too. */
  lemma LongerValuePasses(stored: Option<string>)
    ensures AgeOk("age_ok_v1=10", stored)
  {
    ContainsInfix("", AgeCookiePair, "0");
    assert "" + AgeCookiePair + "0" == "age_ok_v1=10";
  }

  /** A row of the `videos` table as the page selects it. */
  datatype PublicVideo = PublicVideo(id: int, title: string, playbackId: string, memberOnly: bool)

  /** The rows the query `.eq('is_member_only', false)` returns, in table
      order. */
  function PublicRows(table: seq<PublicVideo>): (r: seq<PublicVideo>)
    ensures forall i :: 0 <= i < |r| ==> !r[i].memberOnly
    ensures forall v :: v in r <==> v in table && !v.memberOnly
    ensures |r| <= |table|
    ensures forall v :: multiset(r)[v] == (if v.memberOnly then 0 else multiset(table)[v])
  {
    if |table| == 0 then []
    else
      var rest := PublicRows(table[..|table| - 1]);
      var last := table[|table| - 1];
      assert table == table[..|table| - 1] + [last];
      if last.memberOnly then rest else rest + [last]
  }

  /** The list the page shows: the query's rows, or the empty list it
      started with when the query failed or returned no data. */
  function Listed(table: seq<PublicVideo>, queryFailed: bool): (vs: seq<PublicVideo>)
    ensures forall i :: 0 <= i < |vs| ==> !vs[i].memberOnly
    ensures !queryFailed ==> forall v :: v in table && !v.memberOnly ==> v in vs
    ensures queryFailed ==> vs == []
    ensures !queryFailed ==> vs == PublicRows(table)
  {
    if queryFailed then [] else PublicRows(table)
  }
}

=== FILE: videos.dfy ===
/**
  The member gallery (`/videos`): who counts as a member, how videos are
  grouped into film cards, which video of a group is the trailer and which the
  full version, the card title, and the slide list each card shows.
 */
module Videos {
  import opened Common
  import opened Entitlement

  /** A row of the `videos` table. */
  datatype Video = Video(id: int, title: string, playbackId: string, memberOnly: bool, groupKey: string)

  /** The inline `isMember` check of the gallery, in its JavaScript form
      (`!!sub && [...].includes(sub?.status ?? '') && (!end || time > now)`);
      it is the entitlement rule. */
  function IsMember(sub: Option<SubRow>, now: int): (r: bool)
    ensures r <==> IsEntitled(sub, now)
  {
    IncludesActive(StatusOf(sub));
    ExpiryTestAgrees(PeriodEndOf(sub), now);
    && sub.Some?
    && Includes(ActiveStatusList, StatusOf(sub).GetOr(""))
    && (!PeriodTruthy(PeriodEndOf(sub)) || After(GetTime(PeriodEndOf(sub)), now))
  }

  /** The subscription state the page ends up with: the selected row of the
      signed-in user, or null when nobody is signed in. */
  function LoadedSub(user: Option<string>, row: Option<SubRow>): (sub: Option<SubRow>)
    ensures user.None? ==> sub.None?
    ensures user.Some? ==> sub == row
  {
    if user.None? then None else row
  }

  /** Without a signed-in user nobody is a member, whatever row is given. */
  lemma SignedOutIsNotMember(row: Option<SubRow>, now: int)
    ensures !IsMember(LoadedSub(None, row), now)
  {
  }

  /** The video list the page keeps: the query rows, or the empty list when
      the query errs or returns no data. */
  function LoadedVideos(queryFailed: bool, data: Option<seq<Video>>): (vs: seq<Video>)
    ensures !queryFailed && data.Some? ==> vs == data.value
    ensures queryFailed || data.None? ==> vs == []
  {
    if !queryFailed && data.Some? then data.value else []
  }

  // ---------------------------------------------------------------------
  // Grouping by `group_key`.
  // ---------------------------------------------------------------------

  /** One entry of the `Map<string, Video[]>` the page builds. */
  datatype Group = Group(key: string, videos: seq<Video>)

  /** Some video of `vs` has group key `k`. */
  ghost predicate HasKey(vs: seq<Video>, k: string) {
    exists i :: 0 <= i < |vs| && vs[i].groupKey == k
  }

  /** The videos of `vs` whose group key is `k`, in input order. */
  function WithKey(vs: seq<Video>, k: string): seq<Video>
    decreases |vs|
  {
    if |vs| == 0 then []
    else WithKey(vs[..|vs| - 1], k) + (if vs[|vs| - 1].groupKey == k then [vs[|vs| - 1]] else [])
  }

  /** The position of the first video of `vs` with group key `k`. */
  function FirstIndex(vs: seq<Video>, k: string): (i: nat)
    requires HasKey(vs, k)
    ensures i < |vs| && vs[i].groupKey == k
    ensures forall j :: 0 <= j < i ==> vs[j].groupKey != k
    decreases |vs|
  {
    if vs[0].groupKey == k then 0
    else
      var w :| 0 <= w < |vs| && vs[w].groupKey == k;
      assert vs[1..][w - 1].groupKey == k;
      FirstIndex(vs[1..], k) + 1
  }

  /** No two groups share a key. */
  ghost predicate DistinctKeys(gs: seq<Group>) {
    forall i, j :: 0 <= i < j < |gs| ==> gs[i].key != gs[j].key
  }

  /** Each group holds exactly the videos with its key, in input order. */
  ghost predicate GroupsHoldTheirVideos(vs: seq<Video>, gs: seq<Group>) {
    forall i :: 0 <= i < |gs| ==> gs[i].videos == WithKey(vs, gs[i].key)
  }

  /** Every group key is the key of some video. */
  ghost predicate KeysFromVideos(vs: seq<Video>, gs: seq<Group>) {
    forall i :: 0 <= i < |gs| ==> HasKey(vs, gs[i].key)
  }

  /** Some group has key `k`. */
  ghost predicate KeyHasGroup(gs: seq<Group>, k: string) {
    exists i :: 0 <= i < |gs| && gs[i].key == k
  }

  /** Every video's key has a group. */
  ghost predicate CoversVideos(vs: seq<Video>, gs: seq<Group>) {
    forall n :: 0 <= n < |vs| ==> KeyHasGroup(gs, vs[n].groupKey)
  }

  /** Groups are ordered by the first appearance of their key. */
  ghost predicate OrderedByFirstAppearance(vs: seq<Video>, gs: seq<Group>)
    requires KeysFromVideos(vs, gs)
  {
    forall i, j :: 0 <= i < j < |gs| ==> FirstIndex(vs, gs[i].key) < FirstIndex(vs, gs[j].key)
  }

  /** `gs` is the grouping of `vs`: one group per distinct key, each holding
      exactly the videos with that key in input order, and the groups ordered
      by the first appearance of their key. */
  ghost predicate GroupedBy(vs: seq<Video>, gs: seq<Group>) {
    && DistinctKeys(gs)
    && GroupsHoldTheirVideos(vs, gs)
    && KeysFromVideos(vs, gs)
    && CoversVideos(vs, gs)
    && OrderedByFirstAppearance(vs, gs)
  }

  /** `map.get(k)`: the position of the group with key `k`, if any. */
  function KeyIndex(gs: seq<Group>, k: string): (r: Option<nat>)
    ensures r.Some? ==> r.value < |gs| && gs[r.value].key == k
    ensures r.None? ==> forall i :: 0 <= i < |gs| ==> gs[i].key != k
    decreases |gs|
  {
    if |gs| == 0 then None
    else if gs[0].key == k then Some(0)
    else match KeyIndex(gs[1..], k)
      case Some(i) => Some(i + 1)
      case None => None
  }

  /** One step of the loop: append `v` to its group, or open a new group at
      the end of the map when its key is new. */
  function AddVideo(gs: seq<Group>, v: Video): seq<Group> {
    match KeyIndex(gs, v.groupKey)
    case Some(i) => gs[i := Group(gs[i].key, gs[i].videos + [v])]
    case None => gs + [Group(v.groupKey, [v])]
  }

  /** The `groups` memo: the loop over `videos`, one `AddVideo` per video. */
  function GroupVideos(vs: seq<Video>): (gs: seq<Group>)
    ensures GroupedBy(vs, gs)
    decreases |vs|
  {
    if |vs| == 0 then []
    else
      var gs := GroupVideos(vs[..|vs| - 1]);
      AddLastVideoKeepsGrouping(vs, gs);
      AddVideo(gs, vs[|vs| - 1])
  }

  lemma WithKeySnoc(vs: seq<Video>, v: Video, k: string)
    ensures WithKey(vs + [v], k) == WithKey(vs, k) + (if v.groupKey == k then [v] else [])
  {
    assert (vs + [v])[..|vs|] == vs;
  }

  lemma {:induction false} WithKeyOfAbsentKey(vs: seq<Video>, k: string)
    requires !HasKey(vs, k)
    ensures WithKey(vs, k) == []
    decreases |vs|
  {
    if |vs| > 0 {
      var prefix := vs[..|vs| - 1];
      assert forall w :: 0 <= w < |prefix| ==> prefix[w] == vs[w];
      WithKeyOfAbsentKey(prefix, k);
    }
  }

  lemma FirstIndexSnoc(vs: seq<Video>, v: Video, k: string)
    requires HasKey(vs, k)
    ensures HasKey(vs + [v], k)
    ensures FirstIndex(vs + [v], k) == FirstIndex(vs, k)
  {
    var a := FirstIndex(vs, k);
    assert forall j :: 0 <= j < |vs| ==> (vs + [v])[j] == vs[j];
    assert (vs + [v])[a] == vs[a];
  }

  lemma FirstIndexOfNewKey(vs: seq<Video>, v: Video)
    requires !HasKey(vs, v.groupKey)
    ensures HasKey(vs + [v], v.groupKey)
    ensures FirstIndex(vs + [v], v.groupKey) == |vs|
  {
    assert (vs + [v])[|vs|] == v;
    assert forall j :: 0 <= j < |vs| ==> (vs + [v])[j] == vs[j];
  }

  /** `AddVideoKeepsGrouping`, stated for the last video of `vs`. */
  lemma AddLastVideoKeepsGrouping(vs: seq<Video>, gs: seq<Group>)
    requires |vs| > 0 && GroupedBy(vs[..|vs| - 1], gs)
    ensures GroupedBy(vs, AddVideo(gs, vs[|vs| - 1]))
  {
    assert vs[..|vs| - 1] + [vs[|vs| - 1]] == vs;
    AddVideoKeepsGrouping(vs[..|vs| - 1], gs, vs[|vs| - 1]);
  }

  /** Adding a video to a correct grouping gives the grouping of the longer
      list. */
  lemma AddVideoKeepsGrouping(vs: seq<Video>, gs: seq<Group>, v: Video)
    requires GroupedBy(vs, gs)
    ensures GroupedBy(vs + [v], AddVideo(gs, v))
  {
    match KeyIndex(gs, v.groupKey)
    case Some(i) => AppendToGroup(vs, gs, v, i);
    case None => OpenGroup(vs, gs, v);
  }

  lemma AppendToGroup(vs: seq<Video>, gs: seq<Group>, v: Video, i: nat)
    requires GroupedBy(vs, gs)
    requires i < |gs| && gs[i].key == v.groupKey
    ensures GroupedBy(vs + [v], gs[i := Group(gs[i].key, gs[i].videos + [v])])
  {
    var vs' := vs + [v];
    var gs' := gs[i := Group(gs[i].key, gs[i].videos + [v])];
    assert DistinctKeys(gs') by {
      assert forall j :: 0 <= j < |gs| ==> gs'[j].key == gs[j].key;
    }
    assert GroupsHoldTheirVideos(vs', gs') by {
      forall j | 0 <= j < |gs'|
        ensures gs'[j].videos == WithKey(vs', gs'[j].key)
      {
        WithKeySnoc(vs, v, gs[j].key);
      }
    }
    SnocKeepsOldKeys(vs, gs, v, gs');
    assert CoversVideos(vs', gs') by {
      forall n | 0 <= n < |vs'|
        ensures KeyHasGroup(gs', vs'[n].groupKey)
      {
        if n < |vs| {
          assert vs'[n] == vs[n];
          var j :| 0 <= j < |gs| && gs[j].key == vs[n].groupKey;
          assert gs'[j].key == vs'[n].groupKey;
        } else {
          assert gs'[i].key == vs'[n].groupKey;
        }
      }
    }
  }

  /** Appending a video keeps the order of two keys already present. */
  lemma SnocKeepsOrder(vs: seq<Video>, v: Video, a: string, b: string)
    requires HasKey(vs, a) && HasKey(vs, b) && FirstIndex(vs, a) < FirstIndex(vs, b)
    ensures HasKey(vs + [v], a) && HasKey(vs + [v], b)
    ensures FirstIndex(vs + [v], a) < FirstIndex(vs + [v], b)
  {
    FirstIndexSnoc(vs, v, a);
    FirstIndexSnoc(vs, v, b);
  }

  /** A key already present comes before a key first seen in the appended
      video. */
  lemma SnocOldBeforeNew(vs: seq<Video>, v: Video, a: string, b: string)
    requires HasKey(vs, a) && HasKey(vs + [v], b) && FirstIndex(vs + [v], b) == |vs|
    ensures HasKey(vs + [v], a)
    ensures FirstIndex(vs + [v], a) < FirstIndex(vs + [v], b)
  {
    FirstIndexSnoc(vs, v, a);
  }

  /** Appending a video keeps the first positions of the keys already
      grouped, so a prefix of groups with unchanged keys stays ordered. */
  lemma SnocKeepsOldKeys(vs: seq<Video>, gs: seq<Group>, v: Video, gs': seq<Group>)
    requires KeysFromVideos(vs, gs) && OrderedByFirstAppearance(vs, gs)
    requires |gs| <= |gs'|
    requires forall j :: 0 <= j < |gs| ==> gs'[j].key == gs[j].key
    requires |gs'| == |gs| || (|gs'| == |gs| + 1 && HasKey(vs + [v], gs'[|gs|].key)
                               && FirstIndex(vs + [v], gs'[|gs|].key) == |vs|)
    ensures KeysFromVideos(vs + [v], gs')
    ensures OrderedByFirstAppearance(vs + [v], gs')
  {
    var vs' := vs + [v];
    forall j | 0 <= j < |gs'|
      ensures HasKey(vs', gs'[j].key)
    {
      if j < |gs| {
        FirstIndexSnoc(vs, v, gs[j].key);
      }
    }
    forall i, j | 0 <= i < j < |gs'|
      ensures FirstIndex(vs', gs'[i].key) < FirstIndex(vs', gs'[j].key)
    {
      if j == |gs| {
        SnocOldBeforeNew(vs, v, gs[i].key, gs'[|gs|].key);
      } else {
        SnocKeepsOrder(vs, v, gs[i].key, gs[j].key);
      }
    }
  }

  lemma OpenGroup(vs: seq<Video>, gs: seq<Group>, v: Video)
    requires GroupedBy(vs, gs)
    requires forall j :: 0 <= j < |gs| ==> gs[j].key != v.groupKey
    ensures GroupedBy(vs + [v], gs + [Group(v.groupKey, [v])])
  {
    var gs' := gs + [Group(v.groupKey, [v])];
    NewKeyIsAbsent(vs, gs, v);
    assert forall j :: 0 <= j < |gs| ==> gs'[j] == gs[j];
    OpenGroupHoldsVideos(vs, gs, v);
    FirstIndexOfNewKey(vs, v);
    SnocKeepsOldKeys(vs, gs, v, gs');
    OpenGroupCovers(vs, gs, v);
  }

  lemma NewKeyIsAbsent(vs: seq<Video>, gs: seq<Group>, v: Video)
    requires CoversVideos(vs, gs)
    requires forall j :: 0 <= j < |gs| ==> gs[j].key != v.groupKey
    ensures !HasKey(vs, v.groupKey)
  {
    forall w | 0 <= w < |vs|
      ensures vs[w].groupKey != v.groupKey
    {
      var j :| 0 <= j < |gs| && gs[j].key == vs[w].groupKey;
    }
  }

  lemma OpenGroupHoldsVideos(vs: seq<Video>, gs: seq<Group>, v: Video)
    requires GroupsHoldTheirVideos(vs, gs)
    requires forall j :: 0 <= j < |gs| ==> gs[j].key != v.groupKey
    requires !HasKey(vs, v.groupKey)
    ensures GroupsHoldTheirVideos(vs + [v], gs + [Group(v.groupKey, [v])])
  {
    var gs' := gs + [Group(v.groupKey, [v])];
    forall j | 0 <= j < |gs'|
      ensures gs'[j].videos == WithKey(vs + [v], gs'[j].key)
    {
      if j < |gs| {
        assert gs'[j] == gs[j];
        WithKeySnoc(vs, v, gs[j].key);
      } else {
        WithKeyOfAbsentKey(vs, v.groupKey);
        WithKeySnoc(vs, v, v.groupKey);
      }
    }
  }

  lemma OpenGroupCovers(vs: seq<Video>, gs: seq<Group>, v: Video)
    requires CoversVideos(vs, gs)
    ensures CoversVideos(vs + [v], gs + [Group(v.groupKey, [v])])
  {
    var vs' := vs + [v];
    var gs' := gs + [Group(v.groupKey, [v])];
    forall n | 0 <= n < |vs'|
      ensures KeyHasGroup(gs', vs'[n].groupKey)
    {
      if n < |vs| {
        assert vs'[n] == vs[n];
        var j :| 0 <= j < |gs| && gs[j].key == vs[n].groupKey;
        assert gs'[j].key == vs'[n].groupKey;
      } else {
        assert gs'[|gs|].key == vs'[n].groupKey;
      }
    }
    assert CoversVideos(vs', gs');
  }

  /** A video belongs to the videos with key `k` iff it is in the list and
      carries key `k`. */
  lemma {:induction false} WithKeyMembers(vs: seq<Video>, k: string, v: Video)
    ensures v in WithKey(vs, k) <==> v in vs && v.groupKey == k
    decreases |vs|
  {
    if |vs| > 0 {
      var prefix := vs[..|vs| - 1];
      WithKeyMembers(prefix, k, v);
      assert vs == prefix + [vs[|vs| - 1]];
    }
  }

  /** Every video of the list lands in exactly one group: the one under its
      own key. */
  lemma EveryVideoInExactlyOneGroup(vs: seq<Video>, n: nat)
    requires n < |vs|
    ensures exists i :: 0 <= i < |GroupVideos(vs)| && GroupVideos(vs)[i].key == vs[n].groupKey
    ensures forall i :: 0 <= i < |GroupVideos(vs)| ==>
              (vs[n] in GroupVideos(vs)[i].videos <==> GroupVideos(vs)[i].key == vs[n].groupKey)
  {
    var gs := GroupVideos(vs);
    forall i | 0 <= i < |gs|
      ensures vs[n] in gs[i].videos <==> gs[i].key == vs[n].groupKey
    {
      WithKeyMembers(vs, gs[i].key, vs[n]);
    }
  }

  /** The map is empty exactly when there are no videos (the "No videos yet"
      notice). */
  lemma NoGroupsIffNoVideos(vs: seq<Video>)
    ensures |GroupVideos(vs)| == 0 <==> |vs| == 0
  {
    if |vs| > 0 {
      var gs := GroupVideos(vs);
      assert exists i :: 0 <= i < |gs| && gs[i].key == vs[0].groupKey;
    }
  }

  // ---------------------------------------------------------------------
  // Trailer, full version and title of a group.
  // ---------------------------------------------------------------------

  /** `list.findIndex(v => v.is_member_only === want)`, as an option. */
  function FirstMatch(list: seq<Video>, want: bool): (r: Option<nat>)
    ensures r.None? <==> forall j :: 0 <= j < |list| ==> list[j].memberOnly != want
    ensures r.Some? ==> r.value < |list| && list[r.value].memberOnly == want
    ensures r.Some? ==> forall j :: 0 <= j < r.value ==> list[j].memberOnly != want
    decreases |list|
  {
    if |list| == 0 then None
    else if list[0].memberOnly == want then Some(0)
    else match FirstMatch(list[1..], want)
      case Some(i) => Some(i + 1)
      case None => None
  }

  /** `list.find(v => v.is_member_only === want)`. */
  function Find(list: seq<Video>, want: bool): Option<Video> {
    match FirstMatch(list, want)
    case Some(i) => Some(list[i])
    case None => None
  }

  /** The trailer of a group: its first video that is not member-only. */
  function TrailerOf(list: seq<Video>): Option<Video> {
    Find(list, false)
  }

  /** The full version of a group: its first member-only video. */
  function FullOf(list: seq<Video>): Option<Video> {
    Find(list, true)
  }

  /** Trailer and full version: each is the first video of its kind, absent
      exactly when the group has no video of that kind. */
  lemma TrailerAndFullSelection(list: seq<Video>)
    ensures TrailerOf(list).None? <==> forall j :: 0 <= j < |list| ==> list[j].memberOnly
    ensures FullOf(list).None? <==> forall j :: 0 <= j < |list| ==> !list[j].memberOnly
    ensures TrailerOf(list).Some? ==>
              (exists i :: 0 <= i < |list| && list[i] == TrailerOf(list).value
                 && !list[i].memberOnly && forall j :: 0 <= j < i ==> list[j].memberOnly)
    ensures FullOf(list).Some? ==>
              (exists i :: 0 <= i < |list| && list[i] == FullOf(list).value
                 && list[i].memberOnly && forall j :: 0 <= j < i ==> !list[j].memberOnly)
  {
    var t := FirstMatch(list, false);
    if t.Some? {
      assert list[t.value] == TrailerOf(list).value;
    }
    var f := FirstMatch(list, true);
    if f.Some? {
      assert list[f.value] == FullOf(list).value;
    }
  }

  /** `v?.mux_playback_id ?? null`. */
  function PlaybackIdOf(v: Option<Video>): Option<string> {
    if v.Some? then Some(v.value.playbackId) else None
  }

  /** `displayTitle`: the title of the first video that is not member-only,
      else the first video's title, else "Untitled". */
  function DisplayTitle(list: seq<Video>): (r: string)
    ensures (exists i :: 0 <= i < |list| && !list[i].memberOnly) ==>
              (exists i :: 0 <= i < |list| && !list[i].memberOnly && r == list[i].title
                 && forall j :: 0 <= j < i ==> list[j].memberOnly)
    ensures |list| > 0 && (forall i :: 0 <= i < |list| ==> list[i].memberOnly) ==> r == list[0].title
    ensures |list| == 0 ==> r == "Untitled"
  {
    match TrailerOf(list)
    case Some(t) => t.title
    case None => if |list| > 0 then list[0].title else "Untitled"
  }

  // ---------------------------------------------------------------------
  // Film cards and their slides.
  // ---------------------------------------------------------------------

  datatype Slide = Trailer | Full | Locked

  /** The `slides` memo of `FilmCard`. */
  function Slides(trailerId: Option<string>, fullId: Option<string>, isMember: bool): (s: seq<Slide>)
    ensures 1 <= |s| <= 2
    ensures s[0] == Trailer <==> Truthy(trailerId)
    ensures |s| == 2 <==> Truthy(trailerId)
    ensures s[|s| - 1] == Full <==> isMember && Truthy(fullId)
    ensures s[|s| - 1] == Locked <==> !(isMember && Truthy(fullId))
    ensures Full in s ==> isMember && Truthy(fullId)
  {
    (if Truthy(trailerId) then [Trailer] else [])
      + (if isMember && Truthy(fullId) then [Full] else [Locked])
  }

  /** Arrows and dots are rendered only for a card with more than one slide. */
  predicate ShowsCarouselControls(slides: seq<Slide>) {
    |slides| > 1
  }

  /** A card shows its carousel controls exactly when it has a trailer. */
  lemma ControlsIffTrailer(trailerId: Option<string>, fullId: Option<string>, isMember: bool)
    ensures ShowsCarouselControls(Slides(trailerId, fullId, isMember)) <==> Truthy(trailerId)
  {
  }

  /** The props one `FilmCard` receives, and its slide list. */
  datatype Card = Card(key: string, title: string, trailerId: Option<string>, fullId: Option<string>, slides: seq<Slide>)

  /** A group's card: its key, its display title, the playback ids of its
      trailer and of its full version (absent exactly when the group has no
      video of that kind), and the slides those ids give. */
  function CardFor(g: Group, isMember: bool): (c: Card)
    ensures c.key == g.key && c.title == DisplayTitle(g.videos)
    ensures c.trailerId == PlaybackIdOf(TrailerOf(g.videos)) && c.fullId == PlaybackIdOf(FullOf(g.videos))
    ensures c.trailerId.None? <==> forall j :: 0 <= j < |g.videos| ==> g.videos[j].memberOnly
    ensures c.fullId.None? <==> forall j :: 0 <= j < |g.videos| ==> !g.videos[j].memberOnly
    ensures c.slides == Slides(c.trailerId, c.fullId, isMember)
  {
    TrailerAndFullSelection(g.videos);
    var trailerId := PlaybackIdOf(TrailerOf(g.videos));
    var fullId := PlaybackIdOf(FullOf(g.videos));
    Card(g.key, DisplayTitle(g.videos), trailerId, fullId, Slides(trailerId, fullId, isMember))
  }

  /** The header links: "Sign in" without a user, "Subscribe" for
      non-members, the sign-out button with a user. */
  datatype Header = Header(signIn: bool, subscribe: bool, signOut: bool)

  datatype Page = Page(header: Header, cards: seq<Card>)

  /** The rendered gallery, once the user, the selected subscription row and
      the video rows are known. */
  function Gallery(user: Option<string>, row: Option<SubRow>, videos: seq<Video>, now: int): (p: Page)
    ensures p.header.subscribe <==> !IsEntitled(LoadedSub(user, row), now)
    ensures p.header.signIn <==> user.None?
    ensures p.header.signOut <==> user.Some?
    ensures |p.cards| == |GroupVideos(videos)|
    ensures forall i :: 0 <= i < |p.cards| ==> p.cards[i] == CardFor(GroupVideos(videos)[i], IsMember(LoadedSub(user, row), now))
  {
    var member := IsMember(LoadedSub(user, row), now);
    var gs := GroupVideos(videos);
    Page(Header(user.None?, !member, user.Some?), seq(|gs|, i requires 0 <= i < |gs| => CardFor(gs[i], member)))
  }

  /** Whoever is not entitled never receives a "full" slide, whatever the
      videos are: every card ends with the locked slide instead. */
  lemma NonMemberNeverGetsFull(user: Option<string>, row: Option<SubRow>, videos: seq<Video>, now: int)
    requires !IsEntitled(LoadedSub(user, row), now)
    ensures forall i :: 0 <= i < |Gallery(user, row, videos, now).cards| ==>
              var s := Gallery(user, row, videos, now).cards[i].slides;
              Full !in s && s[|s| - 1] == Locked
  {
  }

  /** A "full" slide only ever plays a member-only video of the card's own
      group, and only for a member. */
  lemma FullSlidePlaysMemberVideo(user: Option<string>, row: Option<SubRow>, videos: seq<Video>, now: int)
    ensures var cards := Gallery(user, row, videos, now).cards;
      forall i :: 0 <= i < |cards| && Full in cards[i].slides ==>
        && IsEntitled(LoadedSub(user, row), now)
        && exists v :: v in videos && v.memberOnly && v.groupKey == cards[i].key && cards[i].fullId == Some(v.playbackId)
  {
    var cards := Gallery(user, row, videos, now).cards;
    var gs := GroupVideos(videos);
    forall i | 0 <= i < |cards| && Full in cards[i].slides
      ensures exists v :: v in videos && v.memberOnly && v.groupKey == cards[i].key && cards[i].fullId == Some(v.playbackId)
    {
      TrailerAndFullSelection(gs[i].videos);
      var full := FullOf(gs[i].videos).value;
      WithKeyMembers(videos, gs[i].key, full);
    }
  }
}
